=== FILE: README.md ===
# Speech-therapy content studio: the video synthesis core in Dafny

The application helps a speech-therapy practice publish on Xiaohongshu.
It generates a post with an AI model and turns the post into a narration
script: a spoken text, its captions (sections) and a duration for each
caption. It then renders the script in the browser as a 1080×1920 video:
speech synthesis, the captions drawn on a canvas over an optional background
image, and the two recorded together. A dashboard summarises the user's
pronunciation-assessment history.

This project models the deterministic core of that pipeline and proves what
it promises.

- **Caption timeline** (`timeline.dfy`). Prefix sums of the section
  durations, in milliseconds, select the active caption. The progress ramp
  is `min(50 + elapsed/duration·40, 90)`. Selection is monotone in time
  whatever the signs of the durations. With non-negative durations, each
  section is selected exactly during its own span.
- **Frame loop** (`frame_loop.dfy`). The `animate` callback is a state
  machine driven by the elapsed-time samples the clock delivers, one per
  animation frame. Each tick first applies the stop rule, then draws with
  the caption index of the previous tick, then recomputes that index and
  reports progress. Frame 0 therefore always shows section 0. When the
  declared length equals the section total, frame `j+1` shows the section
  selected at frame `j`; otherwise a tick that finds no section keeps the
  previous index.
- **Caption wrapping and frame drawing** (`caption.dfy`).
  - `drawText`'s greedy line breaking is a loop whose result is proved to be
    the greedy wrapping for any measuring function. That wrapping is unique.
  - Cover fitting of the background image is modelled over the reals.
  - So are the caption guard and the elapsed-seconds readout.
- **Pipeline** (`synthesis.dfy`). `textToSpeech`, `createVideoWithAudio`,
  `synthesizeVideo`, `cleanup` and the exported wrapper.
  - Everything the browser decides is an input. That covers whether a speech
    engine exists and how the utterance ends, whether the background image
    decodes, whether playback starts, whether the recorder accepts the codec,
    the clock samples, and the video URL.
  - Each media object is a handle: whether it was created, and how often it
    was closed, stopped or revoked.
  - The model keeps the resource behaviour of videoSynthesisService.ts as
    it is. `cleanup` closes only the speech context, and on success that
    context is closed twice. The recorder field `cleanup` checks is never assigned. The
    playback context and the speech audio URL are never released. The
    compositing context stays open when playback or the recorder fails.
- **Content services**.
  - `content_generator.dfy` covers the Gemini-backed service and
    `deepseek.dfy` the DeepSeek-backed one.
  - Both show how a decoded model reply becomes a post or a script, with the
    fallback records.
  - For DeepSeek, it also shows how HTTP outcomes, aborts and thrown values
    become error messages.
  - On every path a script's declared length equals the sum of its section
    durations.
- **Generator screen** (`generator_ui.dfy`).
  - Post and script edits, the copied text, the download name and the upload
    check.
  - The step indicator.
  - The three handlers that call the services.
  - End to end, the exported video's duration is the section total of the
    script as edited.
- **Dashboard** (`dashboard.dfy`). The last-ten chart, the rounded average
  with its colour band, and the newest-first recent list with its badges.
- **Shared files**. `types.dfy` mirrors the records of `types.ts` and defines
  the duration total. `text.dfy` defines decimal rendering, join and split.
  `wrappers.dfy` holds `Option`/`Result`.

Numbers: times are integer milliseconds (`nat`), durations are integer
seconds (`int`), and progress values and canvas geometry are `real`.

## Model

| member | source | states |
|---|---|---|
| Text.NatToString | services/videoSynthesisService.ts:39 | `Date.now().toString()` is a non-empty string of decimal digits with no leading zero except for 0 |
| Text.NatToStringRoundTrip | services/contentGeneratorService.ts:100 | reading the decimal id back gives the clock value it was made from |
| Text.NatToStringInjective | services/contentGeneratorService.ts:194 | different clock values give different ids |
| Text.SplitJoin | components/XiaohongshuGenerator.tsx:80 | splitting a space-joined list at the space gives the list back when no part contains a space |
| Types.PrefixDurationStep | services/videoSynthesisService.ts:164-166 | each step of the accumulation adds exactly that section's duration |
| Types.PrefixDurationMonotone | services/videoSynthesisService.ts:164-171 | with no negative duration the running total never decreases |
| Types.TotalDurationIgnoresText | components/XiaohongshuGenerator.tsx:302-305 | two section lists with the same durations have the same total, whatever their captions |
| Types.TotalDuration | services/contentGeneratorService.ts:187-190 | the `reduce` total of the section durations, never negative when no duration is |
| Types.TotalDurationFront | services/contentGeneratorService.ts:187-190 | the total is the first duration plus the total of the rest, the order in which `reduce` adds from 0 |
| Timeline.SectionFrom | services/videoSynthesisService.ts:164-171 | the scan resumed at `i` returns the first covering section at or after `i`, or none when no later section covers the time |
| Timeline.SelectSection | services/videoSynthesisService.ts:164-171 | the index chosen is the first `i` with `elapsed < Σ_{j≤i} duration_j·1000`, and none is chosen exactly when no section covers the time |
| Timeline.NextSection | services/videoSynthesisService.ts:151-171 | `currentSection` becomes the selected section, an existing one, when some section covers the time, and keeps its old value otherwise |
| Timeline.SelectSectionMonotone | services/videoSynthesisService.ts:164-171 | a later time never selects an earlier section, and once nothing is selected nothing is selected later |
| Timeline.SelectSectionSpan | services/videoSynthesisService.ts:164-171 | with non-negative durations section `i` is selected exactly when `start_i ≤ elapsed < end_i` |
| Timeline.SectionFoundBeforeTotal | services/videoSynthesisService.ts:149-171 | before the section total has elapsed some section is always selected |
| Timeline.Ramp | services/videoSynthesisService.ts:173-174 | the progress reported after a drawn frame is exactly `50 + (elapsed / duration)·40`, and it lies in [50, 90) |
| Timeline.RampMonotone | services/videoSynthesisService.ts:173-174 | the ramp never decreases as the clock advances |
| FrameLoop.RunCounts | services/videoSynthesisService.ts:153-160 | one frame per sample until the first sample reaching `estimatedDuration·1000`, which stops the recorder and closes the context exactly once; nothing is drawn afterwards |
| FrameLoop.RunFrameTimes | services/videoSynthesisService.ts:154-174 | frame `j` is drawn at sample `j`, before the stop time, and is followed by the ramp value for that sample |
| FrameLoop.RunFrameSections | services/videoSynthesisService.ts:151-171 | frame `j` is drawn with the index computed by the ticks before it, so frame 0 shows section 0 |
| FrameLoop.RunCurrent | services/videoSynthesisService.ts:151-171 | after a run `currentSection` is the index computed by the ticks that drew a frame |
| FrameLoop.RunFrameSection | services/videoSynthesisService.ts:162-171 | the frame drawn at tick `j` uses the index the `j` earlier drawing ticks computed |
| FrameLoop.TickSelects | services/videoSynthesisService.ts:164-171 | a tick before the section total has elapsed selects a section and makes it the caption index |
| FrameLoop.RunShape | services/videoSynthesisService.ts:149-179 | the three facts above together: the drawn frames, their times, sections and progress, and the single stop |
| FrameLoop.RunStopsIff | services/videoSynthesisService.ts:154-160 | the loop stops exactly when some sample reaches the run length, and at most once |
| FrameLoop.SectionAfterBelowLaterSelection | services/videoSynthesisService.ts:164-171 | the caption index after some ticks is at most any selection made later |
| FrameLoop.SectionAfterMonotone | services/videoSynthesisService.ts:151-171 | with a clock that never goes back the caption index never decreases |
| FrameLoop.SectionAfterInRange | services/videoSynthesisService.ts:151-171 | with at least one section the caption index always names an existing section |
| FrameLoop.RunFramesMonotone | services/videoSynthesisService.ts:151-171 | drawn frames never go back to an earlier caption and, with sections present, always name an existing one |
| FrameLoop.RunShowsSelectedSection | services/videoSynthesisService.ts:149-171 | when the declared length is the section total, every drawing tick finds a section and frame `j+1` shows the one selected at frame `j` |
| FrameLoop.RunProgressMonotone | services/videoSynthesisService.ts:173-174 | the loop's progress values lie in [50, 90) and never decrease with a clock that never goes back |
| FrameLoop.Tick | services/videoSynthesisService.ts:153-177 | a stopped loop stays as it is; the tick stops exactly when the elapsed time reaches `estimatedDuration·1000`, stopping the recorder once; otherwise it keeps the earlier frames and progress values and appends one frame drawn at that time with the current caption index, then moves the index to the section selected for that time (kept when none covers it), and appends the ramp value `50 + (elapsed / duration)·40`, which lies in [50, 90); a stopping tick keeps the index |
| FrameLoop.Run | services/videoSynthesisService.ts:153-177 | at most one frame per clock sample, one progress value per frame, and one recorder stop exactly when the loop stopped; which frames, at which times and with which captions is stated by RunShape and RunStopsIff above |
| Caption.WrapCaption | services/videoSynthesisService.ts:276-291 | the lines are the greedy wrapping: at least one line, concatenation gives the text, no empty line for non-empty text, every prefix of two or more characters fits, each closed line overflows with the next line's first character |
| Caption.WrapBreak | services/videoSynthesisService.ts:284-286 | closing a non-empty line whose next character overflows keeps the lines gluing back to the text read, every line fitting and every closed line closed by an overflow |
| Caption.WrapExtend | services/videoSynthesisService.ts:287-289 | appending a character that fits, or the first character of a line, keeps the same facts |
| Caption.WrapFinish | services/videoSynthesisService.ts:291 | once the whole text is read, pushing the open line gives the greedy wrapping |
| Caption.GreedyWrapUnique | services/videoSynthesisService.ts:276-291 | for any measuring function at most one line list is a greedy wrapping, so the loop's result is determined by its contract |
| Caption.GreedyWrapTail | services/videoSynthesisService.ts:276-291 | after the first line, the remaining lines are the greedy wrapping of the rest of the text |
| Caption.GreedyWrapSingleLine | services/videoSynthesisService.ts:276-291 | a greedy wrapping whose first line covers the whole text has no other line |
| Caption.FirstLinesAgree | services/videoSynthesisService.ts:280-290 | two greedy wrappings of one text have the same first line, since a shorter one would have been closed while its next character still fit |
| Caption.DrawText | services/videoSynthesisService.ts:262-296 | the caption is wrapped greedily to 920 pixels and its lines are centred at x = 540, starting at y = 1520 and 80 pixels apart |
| Caption.CoverPlacement | services/videoSynthesisService.ts:228-241 | the image keeps its aspect ratio, covers the canvas, touches it exactly on one axis and is centred |
| Caption.Readout | services/videoSynthesisService.ts:252-259 | the readout is whole elapsed seconds in decimal followed by `s` |
| Caption.DrawFrame | services/videoSynthesisService.ts:219-260 | flat background exactly without an image, a caption exactly when the index names a section, and that caption is its greedy wrapping |
| Synthesis.ChineseVoiceIndex | services/videoSynthesisService.ts:64-65 | the first voice whose language starts with `zh`, or none exactly when there is no such voice |
| Synthesis.ChooseVoice | services/videoSynthesisService.ts:64-68 | a voice is set exactly when a Chinese voice exists, and it is the first one |
| Synthesis.TextToSpeech | services/videoSynthesisService.ts:52-100 | without an engine it rejects with nothing spoken or created; otherwise it speaks the text in zh-CN at rate 0.9 and pitch 1; it resolves exactly on the utterance's end, which stops the recorder and closes the context once; the utterance's error event rejects, and an utterance that never ends leaves it unsettled |
| Synthesis.CreateVideoWithAudio | services/videoSynthesisService.ts:102-185 | an undecodable image rejects before 50 is reported; otherwise 50 comes first; a playback failure rejects, and so does a refused codec once playback has started; otherwise the frame loop runs over the clock samples and the values after 50 are its ramp values; it resolves exactly when playback starts, the codec is accepted and the loop stops |
| Synthesis.Cleanup | services/videoSynthesisService.ts:298-305 | closes the speech context exactly once more if one was opened, whether or not it was closed before, and changes nothing else |
| Synthesis.SynthesizeVideo | services/videoSynthesisService.ts:16-50 | progress starts at 10; a video comes out exactly when speech, image, playback and recorder all start and the clock reaches the declared length; it fails exactly when one of them cannot start and the speech engine is not left waiting forever, always with a cause and the one fixed message; the export carries the script id, the declared length, the object URL and the clock's id and timestamp; no cleanup happens inside it. SynthesisSucceedsIff and ProgressSchedule state the step conditions and the progress order |
| Synthesis.SynthesizeVideoAndCleanUp | services/videoSynthesisService.ts:308-319 | the same outcome, cause, progress and frames as the plain run, with `cleanup` run once exactly when the run settles; it touches nothing but the speech context, closing it once more if one was opened |
| Synthesis.SynthesisSucceedsIff | services/videoSynthesisService.ts:16-44 | the run yields a video exactly when every step succeeds and the clock reaches the declared duration; the export carries the script id, the declared duration, the video URL and the two clock readings |
| Synthesis.FailureCollapsed | services/videoSynthesisService.ts:46-49 | every failure surfaces with the one fixed message, and a failure happens exactly when some step rejects |
| Synthesis.NoSpeechEngineFailsFirst | services/videoSynthesisService.ts:54-57 | without a speech engine the run fails after reporting only 10, with nothing spoken and no media object created |
| Synthesis.SpokenUtterance | services/videoSynthesisService.ts:59-68 | what is spoken is the full script text with the fixed language, rate, pitch and the chosen voice |
| Synthesis.ProgressSchedule | services/videoSynthesisService.ts:22-36 | progress starts at 10, stays within [10, 100] and never decreases with a clock that never goes back; 100 is reported exactly on success, as the last value, right after 90 |
| Synthesis.ProgressStages | services/videoSynthesisService.ts:22-36 | progress is 10, then 40 after speech, then 50 once the image is ready, then the loop's values, then 90 and 100 exactly on success |
| Synthesis.RampedAscending | services/videoSynthesisService.ts:116-174 | 10, 40, 50, a rising ramp in [50, 90) and then optionally 90, 100 form a rising sequence within [10, 100] |
| Synthesis.FramesOnlyAfterRecordingStarts | services/videoSynthesisService.ts:147-179 | frames are drawn only once speech, image, playback and recorder are ready, and they are exactly the frame loop's |
| Synthesis.ResourcesOnSuccess | services/videoSynthesisService.ts:81-158 | on success each recorder was stopped once and each of the two closing contexts closed once, while the playback context and the audio URL stay open |
| Synthesis.CleanupOnSettle | services/videoSynthesisService.ts:308-319 | the wrapper runs `cleanup` exactly once when the run settles, on success and failure alike; it closes an opened speech context once more (a second time on success) and leaves every other resource exactly as the run left it |
| Synthesis.LeaksOnLateFailure | services/videoSynthesisService.ts:119-133 | when playback or the recorder fails the compositing context stays open even after cleanup; after an utterance error the speech recorder keeps running |
| ContentGenerator.GenerateContent | services/contentGeneratorService.ts:99-121 | the post echoes topic and type, takes its id and timestamp from the clock and copies the reply's fields; on failure it has the fixed title and text and no lists |
| ContentGenerator.ConvertToVideoScript | services/contentGeneratorService.ts:187-210 | the script keeps the post id, takes the reply's captions in order, and declares their total as its length; a failed request or a reply without captions gives the fallback with no captions and length 0 |
| DeepSeek.HttpErrorDetail | services/deepseekService.ts:78-79 | the body's error message when present and non-empty, otherwise the status text |
| DeepSeek.Rethrown | services/deepseekService.ts:84-93 | an abort becomes the timeout error, other errors pass unchanged, and a non-error value becomes the unknown error |
| DeepSeek.CallDeepSeek | services/deepseekService.ts:50-94 | a request is made exactly when a key is configured, and whatever it throws is an `Error` |
| DeepSeek.CallOutcomes | services/deepseekService.ts:51-93 | an empty key fails with the key message and no request; otherwise fetch failures and body failures go through the catch mapping, and the text is returned exactly when the response is 2xx and the first choice reads |
| DeepSeek.AbortIsTimeout | services/deepseekService.ts:86-89 | an abort while fetching surfaces as "Request timeout. Please try again."; the same mapping applies to an abort error while reading the body, which the cleared timer cannot cause |
| DeepSeek.HttpFailureMessage | services/deepseekService.ts:77-80 | an HTTP failure's message is the fixed prefix, the status in decimal (readable back), ` - ` and the detail |
| DeepSeek.HttpErrorMessage | services/deepseekService.ts:77-80 | the message is `DeepSeek API Error: `, the status in decimal digits that read back as the status, ` - ` and the detail, in that order and nothing else |
| DeepSeek.Decoded | services/deepseekService.ts:142 | the reply decodes to a value exactly when the call succeeded and its text parses, giving the parsed value; otherwise the error is the call's own when the call failed and the parser's when it did not (the script path decodes the same way at line 208) |
| DeepSeek.FailureText | services/deepseekService.ts:163 | a failure record shows the error's message, or the fixed text for a non-error value |
| DeepSeek.GenerateContent | services/deepseekService.ts:144-167 | the post echoes topic and type and takes its id and timestamp from the clock on every path |
| DeepSeek.ContentDefaults | services/deepseekService.ts:149-152 | title and content are copied, and a missing hashtag or image-prompt list becomes empty |
| DeepSeek.ContentOnCallFailure | services/deepseekService.ts:137-167 | when the call or the decoding of its reply fails the post has the fixed title, the thrown error's message (or the fixed text for a non-error value) as content and no lists; a failed call always shows its error message, with no key the key message |
| DeepSeek.ConvertToVideoScript | services/deepseekService.ts:209-230 | on every path the declared length is the section total and the post id is kept |
| DeepSeek.ScriptOutcomes | services/deepseekService.ts:214-230 | the captions are the reply's, in order, or none when absent or on failure; a failed script has length 0 and carries the error message |
| GeneratorUi.EditTitle | components/XiaohongshuGenerator.tsx:216 | only the title changes |
| GeneratorUi.EditContent | components/XiaohongshuGenerator.tsx:225 | only the body text changes |
| GeneratorUi.EditScriptText | components/XiaohongshuGenerator.tsx:285 | only the spoken text changes |
| GeneratorUi.EditSectionText | components/XiaohongshuGenerator.tsx:302-305 | only caption `i`'s text changes: count, durations, other sections, declared length and total stay |
| GeneratorUi.ApplyEdit | components/XiaohongshuGenerator.tsx:285-305 | one edit keeps the section count, ids, durations and declared length; a script-text edit changes only the spoken text, a caption edit changes only caption `i`'s text |
| GeneratorUi.ApplyEdits | components/XiaohongshuGenerator.tsx:285-305 | any series of edits keeps the ids, the declared length, the section count and every duration |
| GeneratorUi.EditsKeepConsistent | components/XiaohongshuGenerator.tsx:302-305 | edits keep the section total, so a script whose length was the total still is |
| GeneratorUi.Hashtags | components/XiaohongshuGenerator.tsx:80 | each tag is prefixed with `#`, in order |
| GeneratorUi.CopyTextLayout | components/XiaohongshuGenerator.tsx:80 | the copied text is title, blank line, body, blank line, tag line; the tag line splits back into the `#` tags |
| GeneratorUi.CopyText | components/XiaohongshuGenerator.tsx:80 | the copied text is the title, a blank line, the body, a blank line and the `#`-prefixed tags joined by spaces, in that order and nothing else |
| GeneratorUi.DownloadNameRoundTrip | components/XiaohongshuGenerator.tsx:95 | the name is the prefix, the export id and `.webm`; the id can be read back, and names differ exactly when ids differ |
| GeneratorUi.DownloadName | components/XiaohongshuGenerator.tsx:95 | the file name is `xiaohongshu_video_`, the export id and `.webm`, and nothing else |
| GeneratorUi.HandleImageUpload | components/XiaohongshuGenerator.tsx:99-106 | a file becomes the background exactly when its type starts with `image/`; otherwise the alert is raised and the background kept |
| GeneratorUi.StepIndicator | components/XiaohongshuGenerator.tsx:108-138 | three markers numbered 1 to 3; circle `i` is filled exactly for `i` below the current step number, the ring sits on the current step alone, connectors follow the first two circles and connector `i` is filled exactly when the current step is beyond circle `i+1` |
| GeneratorUi.StepIndicatorShape | components/XiaohongshuGenerator.tsx:117-134 | a connector is filled exactly when the next circle is, the filled circles form a prefix, and the ringed circle is the last filled one |
| GeneratorUi.HandleGenerateContent | components/XiaohongshuGenerator.tsx:34-44 | the new post carries the selected topic and type and nothing else changes |
| GeneratorUi.HandleConvertToScript | components/XiaohongshuGenerator.tsx:46-59 | without a post nothing happens; otherwise a script for that post, whose length is its section total, is set and the screen moves to script editing |
| GeneratorUi.HandleSynthesize | components/XiaohongshuGenerator.tsx:61-76 | without a script nothing happens; otherwise the bar shows 0 and then the pipeline's values, the video is kept on success and the message alerted on failure |
| GeneratorUi.ExportDurationIsSectionSum | components/XiaohongshuGenerator.tsx:46-76 | after conversion and any edits, a video that comes out lasts the section total of the edited script and names it, and a failure alert carries the pipeline's fixed message |
| GeneratorUi.ShownProgressAscending | components/XiaohongshuGenerator.tsx:61-69 | the bar starts at 0, never moves back with a clock that never goes back, and ends at 100 exactly when a video comes out |
| Dashboard.AllPoints | components/Dashboard.tsx:13-16 | point `i` carries attempt `i`'s score and phoneme and a label `次` followed by a number that reads back as `i + 1` |
| Dashboard.PointFor | components/Dashboard.tsx:13-16 | the point for attempt `i` has its score and phoneme and the label `次` followed by decimal digits that read back as `i + 1` |
| Dashboard.ChartData | components/Dashboard.tsx:13-17 | the last min(10, n) points, in their original order, labelled by their position in the whole history |
| Dashboard.LabelsReadBack | components/Dashboard.tsx:14 | every attempt label is `次` followed by decimal digits that read back as the attempt number |
| Dashboard.ChartLabels | components/Dashboard.tsx:14 | each label is `次` followed by the attempt number, and the last label is the history size |
| Dashboard.RoundedMean | components/Dashboard.tsx:20 | the result is within half of the mean, as `Math.round` is |
| Dashboard.AverageScore | components/Dashboard.tsx:19-21 | 0 for an empty history, otherwise the rounded mean of the scores |
| Dashboard.ScoreSumBounds | components/Dashboard.tsx:20 | the score sum lies between n·lowest and n·highest |
| Dashboard.ScoreSumFront | components/Dashboard.tsx:20 | the sum is the first score plus the sum of the rest, the order in which `reduce` adds from 0 |
| Dashboard.AverageWithinScores | components/Dashboard.tsx:19-21 | the average lies between the lowest and highest score, so it is in [0, 100] when the scores are |
| Dashboard.AverageBand | components/Dashboard.tsx:33 | green exactly from 80, amber exactly in [60, 80), plain exactly below 60 |
| Dashboard.ScoreBadge | components/Dashboard.tsx:105 | green exactly from 80, amber otherwise |
| Dashboard.Reverse | components/Dashboard.tsx:98 | position `k` of the result holds position `n-1-k` of the input |
| Dashboard.RecentRecords | components/Dashboard.tsx:98 | at most five records, the newest first |
| Dashboard.RecentWithinChart | components/Dashboard.tsx:13-17 | every recent record appears among the chart's points, the newest as its last |

## Left out

- Browser media plumbing is modelled only as events and handles. Recorded
  chunks, blobs, streams, `captureStream`, the `speak` call and the 100 ms
  delay before stopping the speech recorder are absent. The blobs' contents
  are not modelled, and the object URL of the video is an input.
- Canvas drawing is modelled only as far as what it places: fills, fonts,
  overlays and `drawImage` pixels are absent. `measureText` is a parameter
  the properties hold for, whatever it returns.
- `Date.now()` and `requestAnimationFrame` are inputs: a finite list of
  elapsed samples, and the two clock readings of each record. That the clock
  never goes back is a lemma precondition. A run whose samples end before
  the stop time, or whose utterance never ends, is reported as not settled.
- Remote calls are left out: services/geminiService.ts, `generateContent`,
  the `fetch` request with its headers and body, the model names, and the
  prompt templates with their topic tables. The 60-second abort timer is
  represented only by the abort error it causes. JSON decoding is an input:
  a decoded reply, or what decoding threw.
- A Gemini reply is taken to have every field its response schema requires.
  A DeepSeek reply is taken to have a title, a body and, for scripts, a
  text. A reply missing such a field leaves an `undefined` field in the
  services' results, and that case is not modelled. A reply's durations are integers,
  so the JavaScript number arithmetic on non-integer or non-numeric
  durations is not modelled.
- The optional progress callback is treated as always supplied. Without it
  nothing is reported and nothing else changes.
- `text.split('')` splits into UTF-16 code units, while the model splits into
  Unicode scalar values. The two differ only for characters outside the
  Basic Multilingual Plane.
- Caption.DrawFrame requires a positive image size. For a decoded image of
  zero width or height `drawFrame` divides by zero and draws at an infinite
  scale, and that case is not modelled.
- Elapsed times are `nat`. A clock that goes back and gives a negative
  elapsed time is not modelled.
- The generator screen's JSX, navigation buttons, clipboard and alert
  calls, `handleCopyScript` (it copies the script text unchanged) and the
  `isGenerating` flag while a request is in flight are absent. The alert
  branches of content generation and script conversion are absent too:
  both services catch every error, so those branches cannot run.
- These screens are not part of this model: components/AssessmentModule.tsx,
  components/TrainingModule.tsx, components/AudioRecorder.tsx, App.tsx, the
  phoneme table in constants.ts and ming-dynasty-timeline/script.js.
  Neither are the dashboard's total-count card, its time formatting and its
  buttons.
- types.ts holds record shapes only. They are mirrored as datatypes with
  nothing further to prove.

=== FILE: caption.dfy ===
/** What one frame of the video shows (services/videoSynthesisService.ts,
    `drawFrame` and `drawText`): the background, the wrapped caption of the
    active section and the elapsed-seconds readout. Text measurement is the
    host's business, so every operation here takes the measuring function as
    a parameter and every property holds whatever it returns. */
module Caption {
  import opened Wrappers
  import opened Text
  import opened Types

  /** The canvas is 1080 x 1920 pixels. */
  const CanvasWidth: int := 1080
  const CanvasHeight: int := 1920

  /** Caption lines may be as wide as the canvas less 80 pixels each side. */
  const MaxCaptionWidth: real := (CanvasWidth - 160) as real
  const CaptionLineHeight: int := 80
  const CaptionX: int := CanvasWidth / 2
  const CaptionTop: int := CanvasHeight - 400

  /** All lines, in order, glued back together. */
  function Concat(lines: seq<string>): string {
    if |lines| == 0 then "" else lines[0] + Concat(lines[1..])
  }

  lemma {:induction false} ConcatAppend(lines: seq<string>, line: string)
    ensures Concat(lines + [line]) == Concat(lines) + line
    decreases |lines|
  {
    if |lines| == 0 {
      assert lines + [line] == [line];
    } else {
      assert (lines + [line])[1..] == lines[1..] + [line];
      ConcatAppend(lines[1..], line);
    }
  }

  /** Every prefix of `line` that has at least two characters measures at
      most `maxWidth`: a line only ever grew by a character that still fit,
      except for its first character, which is placed however wide it is. */
  predicate PrefixesFit(line: string, measure: string -> real, maxWidth: real) {
    forall k :: 2 <= k <= |line| ==> measure(line[..k]) <= maxWidth
  }

  /** Appending a character that fits, or the first character of a line,
      keeps every prefix fitting. */
  lemma ExtendKeepsPrefixesFit(line: string, ch: char, measure: string -> real, maxWidth: real)
    requires PrefixesFit(line, measure, maxWidth)
    requires |line| == 0 || measure(line + [ch]) <= maxWidth
    ensures PrefixesFit(line + [ch], measure, maxWidth)
  {
    var t := line + [ch];
    assert forall k :: 2 <= k <= |line| ==> t[..k] == line[..k];
    assert t[..|t|] == t;
  }

  /** `line` was closed only because `next`'s first character would not
      have fit after it. */
  predicate ClosedByOverflow(line: string, next: string, measure: string -> real, maxWidth: real) {
    |next| > 0 && measure(line + [next[0]]) > maxWidth
  }

  /** `lines` is the greedy wrapping of `text`: at least one line, the lines
      glued together give the text back, no line is empty unless the text
      is, each line fits as it grew, and each line but the last was closed
      only because its next character would not have fit. */
  predicate IsGreedyWrap(text: string, lines: seq<string>, measure: string -> real, maxWidth: real) {
    && |lines| >= 1
    && Concat(lines) == text
    && (|text| == 0 ==> lines == [""])
    && (|text| > 0 ==> forall i :: 0 <= i < |lines| ==> |lines[i]| > 0)
    && (forall i :: 0 <= i < |lines| ==> PrefixesFit(lines[i], measure, maxWidth))
    && (forall i :: 0 <= i < |lines| - 1 ==> ClosedByOverflow(lines[i], lines[i + 1], measure, maxWidth))
  }

  /** The state of the line-breaking loop after `i` characters: the closed
      lines and the open line glue back to the text read so far, every line
      is non-empty once a character was read, every line fits as it grew,
      and every closed line was closed by an overflow. */
  predicate WrapInvariant(text: string, i: int, lines: seq<string>, line: string,
                          measure: string -> real, maxWidth: real) {
    && 0 <= i <= |text|
    && Concat(lines) + line == text[..i]
    && (i > 0 ==> |line| > 0)
    && (|lines| > 0 ==> i > 0)
    && (forall k :: 0 <= k < |lines| ==> |lines[k]| > 0)
    && (forall k :: 0 <= k < |lines| ==> PrefixesFit(lines[k], measure, maxWidth))
    && PrefixesFit(line, measure, maxWidth)
    && (forall k :: 0 <= k < |lines| - 1 ==> ClosedByOverflow(lines[k], lines[k + 1], measure, maxWidth))
    && (|lines| > 0 ==> ClosedByOverflow(lines[|lines| - 1], line, measure, maxWidth))
  }

  /** Closing a non-empty line because the next character overflows it. */
  lemma WrapBreak(text: string, i: int, lines: seq<string>, line: string,
                  measure: string -> real, maxWidth: real)
    requires WrapInvariant(text, i, lines, line, measure, maxWidth)
    requires i < |text|
    requires |line| > 0 && measure(line + [text[i]]) > maxWidth
    ensures WrapInvariant(text, i + 1, lines + [line], [text[i]], measure, maxWidth)
  {
    var ch := text[i];
    var next := lines + [line];
    ConcatAppend(lines, line);
    assert text[..i + 1] == text[..i] + [ch];
    assert PrefixesFit([ch], measure, maxWidth);
    assert forall k :: 0 <= k < |lines| ==> next[k] == lines[k];
    assert next[|next| - 1] == line;
  }

  /** Appending the next character to the open line, because it fits or
      the line is still empty. */
  lemma WrapExtend(text: string, i: int, lines: seq<string>, line: string,
                   measure: string -> real, maxWidth: real)
    requires WrapInvariant(text, i, lines, line, measure, maxWidth)
    requires i < |text|
    requires |line| == 0 || measure(line + [text[i]]) <= maxWidth
    ensures WrapInvariant(text, i + 1, lines, line + [text[i]], measure, maxWidth)
  {
    var ch := text[i];
    ExtendKeepsPrefixesFit(line, ch, measure, maxWidth);
    assert text[..i + 1] == text[..i] + [ch];
    assert Concat(lines) + (line + [ch]) == (Concat(lines) + line) + [ch];
    assert (line + [ch])[0] == if |line| > 0 then line[0] else ch;
  }

  /** Once the whole text is read, closing the open line gives the greedy
      wrapping. */
  lemma WrapFinish(text: string, lines: seq<string>, line: string,
                   measure: string -> real, maxWidth: real)
    requires WrapInvariant(text, |text|, lines, line, measure, maxWidth)
    ensures IsGreedyWrap(text, lines + [line], measure, maxWidth)
  {
    var all := lines + [line];
    ConcatAppend(lines, line);
    assert text[..|text|] == text;
    assert forall k :: 0 <= k < |lines| ==> all[k] == lines[k];
    assert all[|all| - 1] == line;
  }

  /** The line-breaking loop of `drawText`: characters are appended to the
      current line until the measured width of the line plus the next
      character exceeds `maxWidth` while the line is non-empty; then the
      line is closed and the character starts the next one. */
  method WrapCaption(text: string, measure: string -> real, maxWidth: real) returns (lines: seq<string>)
    ensures IsGreedyWrap(text, lines, measure, maxWidth)
  {
    var line: string := "";
    lines := [];
    var i := 0;
    while i < |text|
      invariant WrapInvariant(text, i, lines, line, measure, maxWidth)
    {
      var testLine := line + [text[i]];
      if measure(testLine) > maxWidth && |line| > 0 {
        WrapBreak(text, i, lines, line, measure, maxWidth);
        lines := lines + [line];
        line := [text[i]];
      } else {
        WrapExtend(text, i, lines, line, measure, maxWidth);
        line := testLine;
      }
      i := i + 1;
    }
    WrapFinish(text, lines, line, measure, maxWidth);
    lines := lines + [line];
  }

  lemma ConcatOfNonEmptyLines(lines: seq<string>)
    requires |lines| > 0
    requires forall i :: 0 <= i < |lines| ==> |lines[i]| > 0
    ensures |Concat(lines)| >= |lines[0]| > 0
  {
  }

  lemma ConcatTwo(lines: seq<string>)
    requires |lines| >= 2
    ensures Concat(lines) == lines[0] + lines[1] + Concat(lines[2..])
  {
    assert lines[1..][1..] == lines[2..];
  }

  /** A greedy wrapping whose first line is the whole text has no other line. */
  lemma GreedyWrapSingleLine(text: string, lines: seq<string>, measure: string -> real, maxWidth: real)
    requires |text| > 0
    requires IsGreedyWrap(text, lines, measure, maxWidth)
    requires |lines[0]| >= |text|
    ensures |lines| == 1
  {
    if |lines| > 1 {
      ConcatTwo(lines);
    }
  }

  /** Dropping the first line of a greedy wrapping leaves a greedy wrapping
      of the rest of the text. */
  lemma GreedyWrapTail(text: string, lines: seq<string>, measure: string -> real, maxWidth: real)
    requires IsGreedyWrap(text, lines, measure, maxWidth)
    requires |lines| > 1
    ensures |text| > 0
    ensures |lines[0]| <= |text| && text[..|lines[0]|] == lines[0]
    ensures IsGreedyWrap(text[|lines[0]|..], lines[1..], measure, maxWidth)
  {
    ConcatTwo(lines);
    assert text == lines[0] + Concat(lines[1..]);
    assert text[|lines[0]|..] == Concat(lines[1..]);
    ConcatOfNonEmptyLines(lines[1..]);
  }

  /** The greedy wrapping of a text is unique: whatever the measuring
      function, exactly one list of lines meets `IsGreedyWrap`, so
      `WrapCaption` is fully determined by its contract. */
  lemma {:induction false} GreedyWrapUnique(text: string, a: seq<string>, b: seq<string>, measure: string -> real, maxWidth: real)
    requires IsGreedyWrap(text, a, measure, maxWidth)
    requires IsGreedyWrap(text, b, measure, maxWidth)
    ensures a == b
    decreases |text|
  {
    if |text| > 0 {
      FirstLinesAgree(text, a, b, measure, maxWidth);
      FirstLinesAgree(text, b, a, measure, maxWidth);
      if |a| == 1 {
        assert Concat(a) == a[0] by { assert a[1..] == []; }
        GreedyWrapSingleLine(text, b, measure, maxWidth);
      } else if |b| == 1 {
        assert Concat(b) == b[0] by { assert b[1..] == []; }
        GreedyWrapSingleLine(text, a, measure, maxWidth);
      } else {
        GreedyWrapTail(text, a, measure, maxWidth);
        GreedyWrapTail(text, b, measure, maxWidth);
        GreedyWrapUnique(text[|a[0]|..], a[1..], b[1..], measure, maxWidth);
        assert a == [a[0]] + a[1..];
        assert b == [b[0]] + b[1..];
      }
    }
  }

  /** When a greedy wrapping has a second line, the text continues after
      the first line with a character that would not have fit on it. */
  lemma FirstLineOverflows(text: string, lines: seq<string>, measure: string -> real, maxWidth: real)
    requires IsGreedyWrap(text, lines, measure, maxWidth)
    requires |lines| >= 2
    ensures |lines[0]| < |text|
    ensures text[..|lines[0]| + 1] == lines[0] + [lines[1][0]]
    ensures measure(text[..|lines[0]| + 1]) > maxWidth
  {
    ConcatTwo(lines);
    assert ClosedByOverflow(lines[0], lines[1], measure, maxWidth);
  }

  /** Every prefix of the text of two or more characters that lies within
      the first line of a greedy wrapping fits. */
  lemma FirstLinePrefixFits(text: string, lines: seq<string>, k: nat, measure: string -> real, maxWidth: real)
    requires IsGreedyWrap(text, lines, measure, maxWidth)
    requires 2 <= k <= |lines[0]|
    ensures k <= |text| && measure(text[..k]) <= maxWidth
  {
    assert text == lines[0] + Concat(lines[1..]);
    assert text[..k] == lines[0][..k];
  }

  /** In two greedy wrappings of the same non-empty text, the first line of
      one is no shorter than the first line of the other: a shorter first
      line would have been closed although its next character fit. */
  lemma FirstLinesAgree(text: string, a: seq<string>, b: seq<string>, measure: string -> real, maxWidth: real)
    requires |text| > 0
    requires IsGreedyWrap(text, a, measure, maxWidth)
    requires IsGreedyWrap(text, b, measure, maxWidth)
    ensures |a[0]| >= |b[0]|
    ensures |a[0]| == |b[0]| ==> a[0] == b[0]
  {
    ConcatOfNonEmptyLines(a);
    ConcatOfNonEmptyLines(b);
    assert text == a[0] + Concat(a[1..]);
    assert text == b[0] + Concat(b[1..]);
    assert text[..|a[0]|] == a[0];
    assert text[..|b[0]|] == b[0];
    if |a[0]| < |b[0]| {
      if |a| == 1 {
        assert false;
      }
      FirstLineOverflows(text, a, measure, maxWidth);
      FirstLinePrefixFits(text, b, |a[0]| + 1, measure, maxWidth);
      assert false;
    }
  }

  /** A caption line as drawn: its text and where it is centred. */
  datatype PlacedLine = PlacedLine(text: string, x: int, y: int)

  function LineTexts(placed: seq<PlacedLine>): (r: seq<string>)
    ensures |r| == |placed|
    ensures forall i :: 0 <= i < |placed| ==> r[i] == placed[i].text
  {
    if |placed| == 0 then [] else [placed[0].text] + LineTexts(placed[1..])
  }

  /** `drawText`: wrap the caption to the panel width and stack the lines
      80 pixels apart from the top of the panel, centred horizontally. */
  method DrawText(text: string, measure: string -> real) returns (placed: seq<PlacedLine>)
    ensures |placed| >= 1
    ensures IsGreedyWrap(text, LineTexts(placed), measure, MaxCaptionWidth)
    ensures forall i :: 0 <= i < |placed| ==>
      placed[i].x == CaptionX && placed[i].y == CaptionTop + i * CaptionLineHeight
  {
    var lines := WrapCaption(text, measure, MaxCaptionWidth);
    placed := seq(|lines|, i requires 0 <= i < |lines| => PlacedLine(lines[i], CaptionX, CaptionTop + i * CaptionLineHeight));
    assert LineTexts(placed) == lines;
  }

  /** Where a background image is drawn: a top-left corner and a size. */
  datatype Placement = Placement(x: real, y: real, width: real, height: real)

  function MaxReal(a: real, b: real): real {
    if a >= b then a else b
  }

  /** The cover fit of `drawFrame`: scale the image by the larger of the two
      canvas-to-image ratios and centre it. The image keeps its aspect ratio,
      covers the whole canvas, touches it exactly on one axis and overhangs
      equally on both sides of the other. */
  function CoverPlacement(imageWidth: real, imageHeight: real): (p: Placement)
    requires imageWidth > 0.0 && imageHeight > 0.0
    ensures p.width * imageHeight == p.height * imageWidth
    ensures p.width >= CanvasWidth as real && p.height >= CanvasHeight as real
    ensures p.width == CanvasWidth as real || p.height == CanvasHeight as real
    ensures p.x <= 0.0 && p.y <= 0.0
    ensures 2.0 * p.x + p.width == CanvasWidth as real
    ensures 2.0 * p.y + p.height == CanvasHeight as real
  {
    var cw := CanvasWidth as real;
    var ch := CanvasHeight as real;
    var sx := cw / imageWidth;
    var sy := ch / imageHeight;
    var scale := MaxReal(sx, sy);
    CoverFacts(imageWidth, imageHeight, cw, ch, scale);
    Placement((cw - imageWidth * scale) / 2.0, (ch - imageHeight * scale) / 2.0,
              imageWidth * scale, imageHeight * scale)
  }

  lemma CoverFacts(w: real, h: real, cw: real, ch: real, scale: real)
    requires w > 0.0 && h > 0.0
    requires scale == MaxReal(cw / w, ch / h)
    ensures w * scale >= cw && h * scale >= ch
    ensures w * scale == cw || h * scale == ch
  {
    assert cw / w * w == cw;
    assert ch / h * h == ch;
    if cw / w >= ch / h {
      assert h * scale >= h * (ch / h);
    } else {
      assert w * scale >= w * (cw / w);
    }
  }

  /** A decoded background image, by its pixel size. */
  datatype Image = Image(width: nat, height: nat)

  datatype Background =
    | Flat           // the light '#f1f5f9' fill alone
    | Covered(placement: Placement)  // the image, cover-fitted, under a 30% black overlay

  /** One rendered frame: background, caption lines (absent when the caption
      index names no section) and the readout in the top-right corner. */
  datatype Frame = Frame(background: Background, caption: Option<seq<PlacedLine>>, readout: string)

  /** The readout: whole elapsed seconds followed by "s". */
  function Readout(elapsed: nat): (r: string)
    ensures |r| >= 2 && r[|r| - 1] == 's'
    ensures forall i :: 0 <= i < |r| - 1 ==> IsDigit(r[i])
    ensures DigitsValue(r[..|r| - 1]) == elapsed / 1000
  {
    var digits := NatToString(elapsed / 1000);
    NatToStringRoundTrip(elapsed / 1000);
    assert (digits + "s")[..|digits|] == digits;
    digits + "s"
  }

  /** `drawFrame`: fill, then the image if there is one, then the caption of
      section `sectionIndex` if the script has such a section, then the
      readout. */
  method DrawFrame(image: Option<Image>, script: VideoScript, sectionIndex: nat, elapsed: nat,
                   measure: string -> real) returns (f: Frame)
    requires image.Some? ==> image.value.width > 0 && image.value.height > 0
    ensures f.background.Flat? <==> image.None?
    ensures image.Some? ==> f.background == Covered(CoverPlacement(image.value.width as real, image.value.height as real))
    ensures f.caption.Some? <==> sectionIndex < |script.sections|
    ensures f.caption.Some? ==>
      |f.caption.value| >= 1 &&
      IsGreedyWrap(script.sections[sectionIndex].text, LineTexts(f.caption.value), measure, MaxCaptionWidth)
    ensures f.readout == Readout(elapsed)
  {
    var background := Flat;
    if image.Some? {
      background := Covered(CoverPlacement(image.value.width as real, image.value.height as real));
    }
    var caption := None;
    if sectionIndex < |script.sections| {
      var placed := DrawText(script.sections[sectionIndex].text, measure);
      caption := Some(placed);
    }
    f := Frame(background, caption, Readout(elapsed));
  }
}

=== FILE: content_generator.dfy ===
/** What services/contentGeneratorService.ts does with the model's reply:
    the post and script records it assembles, and the fixed records it falls
    back to when the request, the JSON decoding or the duration sum throws.
    The request itself is not modelled: its decoded reply is an input, `None`
    standing for any thrown error. The two `Date.now()` readings are inputs
    too. */
module ContentGenerator {
  import opened Wrappers
  import opened Text
  import opened Types

  /** The decoded post reply; the response schema makes every field
      required. */
  datatype ContentReply = ContentReply(title: string, content: string, hashtags: seq<string>, imagePrompts: seq<string>)

  const FailureTitle: string := "生成失败"
  const FailureContent: string := "无法生成内容，请检查网络连接或重试。"
  const FailureScript: string := "脚本生成失败，请重试。"

  /** `generateXiaohongshuContent`: the post built from the reply, or the
      fixed failure post. Either way it carries the requested topic and type,
      the first clock reading in decimal as its id and the second as its
      timestamp. */
  function GenerateContent(topic: ContentTopic, contentType: ContentType, reply: Option<ContentReply>,
                           idClock: nat, stampClock: nat): (r: XiaohongshuContent)
    ensures r.topic == topic && r.contentType == contentType
    ensures r.timestamp == stampClock
    ensures r.id == NatToString(idClock)
    ensures reply.Some? ==>
      && r.title == reply.value.title
      && r.content == reply.value.content
      && r.hashtags == reply.value.hashtags
      && r.imagePrompts == reply.value.imagePrompts
    ensures reply.None? ==>
      r.title == FailureTitle && r.content == FailureContent && r.hashtags == [] && r.imagePrompts == []
  {
    match reply
    case Some(x) =>
      XiaohongshuContent(NatToString(idClock), stampClock, topic, contentType, x.title, x.content, x.hashtags, x.imagePrompts)
    case None =>
      XiaohongshuContent(NatToString(idClock), stampClock, topic, contentType, FailureTitle, FailureContent, [], [])
  }

  /** `convertToVideoScript`: the reply's captions, in order, with their
      summed durations as the declared length. A reply without captions makes
      the sum throw, so it ends on the fallback script, as does any failed
      request. On both paths the declared length equals the total of the
      section durations. */
  function ConvertToVideoScript(content: XiaohongshuContent, reply: Option<ScriptReply>, clock: nat): (r: VideoScript)
    ensures ConsistentScript(r)
    ensures r.contentId == content.id
    ensures r.id == NatToString(clock)
    ensures reply.Some? && reply.value.sections.Some? ==>
      r.script == reply.value.script && r.sections == reply.value.sections.value
    ensures !(reply.Some? && reply.value.sections.Some?) ==>
      r.script == FailureScript && r.sections == [] && r.estimatedDuration == 0
  {
    if reply.Some? && reply.value.sections.Some? then
      var sections := reply.value.sections.value;
      VideoScript(NatToString(clock), content.id, reply.value.script, TotalDuration(sections), sections)
    else
      VideoScript(NatToString(clock), content.id, FailureScript, 0, [])
  }
}

=== FILE: dashboard.dfy ===
/** The aggregates components/Dashboard.tsx shows over the assessment
    history: the chart of the last ten attempts, the rounded average score
    with its colour band, the five most recent records and their score
    badges. */
module Dashboard {
  import opened Text
  import opened Types

  const ChartWindow: nat := 10
  const RecentWindow: nat := 5
  const GoodScore: int := 80
  const FairScore: int := 60

  function MinNat(a: nat, b: nat): nat {
    if a <= b then a else b
  }

  /** One point of the progress chart. */
  datatype ChartPoint = ChartPoint(name: string, score: int, phoneme: string)

  /** The chart label of attempt `i` (counted from 0): "次" and the attempt
      number counted from 1. */
  function AttemptLabel(i: nat): (r: string)
    ensures StartsWith(r, "次") && r[1..] == NatToString(i + 1)
  {
    var r := "次" + NatToString(i + 1);
    assert r[1..] == NatToString(i + 1);
    r
  }

  function PointFor(history: seq<AssessmentResult>, i: nat): (p: ChartPoint)
    requires i < |history|
    ensures p.score == history[i].accuracyScore && p.phoneme == history[i].targetPhoneme
    ensures StartsWith(p.name, "次") && IsDecimal(p.name[1..]) && DigitsValue(p.name[1..]) == i + 1
  {
    NatToStringRoundTrip(i + 1);
    ChartPoint(AttemptLabel(i), history[i].accuracyScore, history[i].targetPhoneme)
  }

  /** Every attempt as a chart point, labelled by its position in the whole
      history. */
  function AllPoints(history: seq<AssessmentResult>): (r: seq<ChartPoint>)
    ensures |r| == |history|
    ensures forall i :: 0 <= i < |history| ==> r[i] == PointFor(history, i)
    ensures forall i :: 0 <= i < |history| ==>
      && StartsWith(r[i].name, "次")
      && IsDecimal(r[i].name[1..])
      && DigitsValue(r[i].name[1..]) == i + 1
      && r[i].score == history[i].accuracyScore
      && r[i].phoneme == history[i].targetPhoneme
  {
    var r := seq(|history|, i requires 0 <= i < |history| => PointFor(history, i));
    LabelsReadBack(|history|);
    r
  }

  /** Every label up to attempt `n` starts with "次" and reads back as its
      attempt number. */
  lemma LabelsReadBack(n: nat)
    ensures forall i :: 0 <= i < n ==>
      StartsWith(AttemptLabel(i), "次") && IsDecimal(AttemptLabel(i)[1..]) && DigitsValue(AttemptLabel(i)[1..]) == i + 1
  {
    forall i | 0 <= i < n
      ensures StartsWith(AttemptLabel(i), "次") && IsDecimal(AttemptLabel(i)[1..]) && DigitsValue(AttemptLabel(i)[1..]) == i + 1
    {
      NatToStringRoundTrip(i + 1);
    }
  }

  /** `history.map(...).slice(-10)`: the last ten points, in their original
      order, keeping their labels from the whole history. */
  function ChartData(history: seq<AssessmentResult>): (r: seq<ChartPoint>)
    ensures |r| == MinNat(ChartWindow, |history|)
    ensures forall k :: 0 <= k < |r| ==> r[k] == PointFor(history, |history| - |r| + k)
  {
    var all := AllPoints(history);
    if |all| <= ChartWindow then all else all[|all| - ChartWindow..]
  }

  /** The chart label of a kept point names its attempt: the labels are
      distinct and read back as the attempt numbers, ending with the size of
      the whole history. */
  lemma ChartLabels(history: seq<AssessmentResult>)
    requires |history| > 0
    ensures var r := ChartData(history);
      forall k :: 0 <= k < |r| ==>
        && StartsWith(r[k].name, "次")
        && IsDecimal(r[k].name[1..])
        && DigitsValue(r[k].name[1..]) == |history| - |r| + k + 1
    ensures var r := ChartData(history);
      IsDecimal(r[|r| - 1].name[1..]) && DigitsValue(r[|r| - 1].name[1..]) == |history|
  {
    var r := ChartData(history);
    var all := AllPoints(history);
    forall k | 0 <= k < |r|
      ensures StartsWith(r[k].name, "次") && IsDecimal(r[k].name[1..])
      ensures DigitsValue(r[k].name[1..]) == |history| - |r| + k + 1
    {
      var i := |history| - |r| + k;
      assert r[k] == all[i];
    }
  }

  /** Sum of the scores, accumulated left to right as `reduce` does. */
  function ScoreSum(history: seq<AssessmentResult>): int {
    if |history| == 0 then 0
    else ScoreSum(history[..|history| - 1]) + history[|history| - 1].accuracyScore
  }

  /** `reduce` adds from the front: the first score plus the sum of the rest. */
  lemma {:induction false} ScoreSumFront(history: seq<AssessmentResult>)
    requires |history| > 0
    ensures ScoreSum(history) == history[0].accuracyScore + ScoreSum(history[1..])
    decreases |history|
  {
    var n := |history|;
    if n > 1 {
      ScoreSumFront(history[..n - 1]);
      assert history[..n - 1][0] == history[0];
      assert history[1..][..n - 2] == history[..n - 1][1..];
    }
  }

  /** `Math.round(sum / n)` for a positive count, in integer arithmetic: the
      integer nearest the mean, halves rounding up. */
  function RoundedMean(sum: int, n: nat): (r: int)
    requires n > 0
    ensures (r as real) - 0.5 <= (sum as real) / (n as real) < (r as real) + 0.5
  {
    var r := (2 * sum + n) / (2 * n);
    RoundedMeanFacts(sum, n, r);
    r
  }

  lemma RoundedMeanFacts(sum: int, n: nat, r: int)
    requires n > 0
    requires r == (2 * sum + n) / (2 * n)
    ensures (r as real) - 0.5 <= (sum as real) / (n as real) < (r as real) + 0.5
  {
    var q := 2 * n;
    var m := 2 * sum + n;
    assert q * r <= m < q * r + q by {
      assert m == q * r + m % q;
    }
    assert r * (2 * n) <= 2 * sum + n < r * (2 * n) + 2 * n;
    MeanBetween(sum as real, n as real, r as real);
  }

  /** From `2nr <= 2s + n < 2nr + 2n` over the reals: `s / n` lies within a
      half of `r`. */
  lemma MeanBetween(s: real, n: real, r: real)
    requires n > 0.0
    requires r * (2.0 * n) <= 2.0 * s + n < r * (2.0 * n) + 2.0 * n
    ensures r - 0.5 <= s / n < r + 0.5
  {
    var x := s / n;
    assert s == x * n;
    var lower := r * (2.0 * n);
    var mid := 2.0 * s + n;
    assert lower == n * (2.0 * r);
    assert mid == n * (2.0 * x + 1.0);
    assert lower + 2.0 * n == n * (2.0 * r + 2.0);
    assert lower <= mid < lower + 2.0 * n;
    ScaleLe(n, 2.0 * r, 2.0 * x + 1.0);
    ScaleLt(n, 2.0 * x + 1.0, 2.0 * r + 2.0);
  }

  lemma ScaleLe(n: real, a: real, b: real)
    requires n > 0.0 && n * a <= n * b
    ensures a <= b
  {
  }

  lemma ScaleLt(n: real, a: real, b: real)
    requires n > 0.0 && n * a < n * b
    ensures a < b
  {
  }

  /** The average accuracy: 0 for no history, otherwise the rounded mean. */
  function AverageScore(history: seq<AssessmentResult>): (r: int)
    ensures |history| == 0 ==> r == 0
    ensures |history| > 0 ==>
      (r as real) - 0.5 <= (ScoreSum(history) as real) / (|history| as real) < (r as real) + 0.5
  {
    if |history| > 0 then RoundedMean(ScoreSum(history), |history|) else 0
  }

  predicate ScoresWithin(history: seq<AssessmentResult>, lo: int, hi: int) {
    forall i :: 0 <= i < |history| ==> lo <= history[i].accuracyScore <= hi
  }

  lemma {:induction false} ScoreSumBounds(history: seq<AssessmentResult>, lo: int, hi: int)
    requires ScoresWithin(history, lo, hi)
    ensures |history| * lo <= ScoreSum(history) <= |history| * hi
    decreases |history|
  {
    if |history| > 0 {
      var prefix := history[..|history| - 1];
      assert ScoresWithin(prefix, lo, hi) by {
        forall i | 0 <= i < |prefix| ensures lo <= prefix[i].accuracyScore <= hi {
          assert prefix[i] == history[i];
        }
      }
      ScoreSumBounds(prefix, lo, hi);
    }
  }

  /** The average lies between the lowest and highest score, so with scores
      in [0, 100] it is a percentage too. */
  lemma AverageWithinScores(history: seq<AssessmentResult>, lo: int, hi: int)
    requires |history| > 0
    requires ScoresWithin(history, lo, hi)
    ensures lo <= AverageScore(history) <= hi
  {
    ScoreSumBounds(history, lo, hi);
    var n := |history| as real;
    var x := (ScoreSum(history) as real) / n;
    assert x * n == ScoreSum(history) as real;
    assert (lo as real) * n <= x * n <= (hi as real) * n;
    assert lo as real <= x <= hi as real;
  }

  datatype Band = Green | Amber | Neutral

  /** The colour of the average: green from 80, amber from 60, plain below. */
  function AverageBand(average: int): (b: Band)
    ensures b == Green <==> average >= GoodScore
    ensures b == Amber <==> FairScore <= average < GoodScore
    ensures b == Neutral <==> average < FairScore
  {
    if average >= GoodScore then Green else if average >= FairScore then Amber else Neutral
  }

  /** The badge of one record: green from 80, amber otherwise. */
  function ScoreBadge(score: int): (b: Band)
    ensures b == Green <==> score >= GoodScore
    ensures b == Amber <==> score < GoodScore
  {
    if score >= GoodScore then Green else Amber
  }

  function Reverse<T>(s: seq<T>): (r: seq<T>)
    ensures |r| == |s|
    ensures forall k :: 0 <= k < |s| ==> r[k] == s[|s| - 1 - k]
  {
    if |s| == 0 then [] else [s[|s| - 1]] + Reverse(s[..|s| - 1])
  }

  /** `history.slice().reverse().slice(0, 5)`: the newest records first, at
      most five. The history itself is a value and stays as it was. */
  function RecentRecords(history: seq<AssessmentResult>): (r: seq<AssessmentResult>)
    ensures |r| == MinNat(RecentWindow, |history|)
    ensures forall k :: 0 <= k < |r| ==> r[k] == history[|history| - 1 - k]
  {
    var reversed := Reverse(history);
    if |reversed| <= RecentWindow then reversed else reversed[..RecentWindow]
  }

  /** The recent list and the chart agree: the newest record is the chart's
      last point, and every record in the list is among the kept chart
      points. */
  lemma RecentWithinChart(history: seq<AssessmentResult>)
    requires |history| > 0
    ensures var r := RecentRecords(history);
      var c := ChartData(history);
      forall k :: 0 <= k < |r| ==>
        c[|c| - 1 - k].score == r[k].accuracyScore && c[|c| - 1 - k].phoneme == r[k].targetPhoneme
  {
  }
}

=== FILE: deepseek.dfy ===
/** services/deepseekService.ts: how `callDeepSeekAPI` turns what the HTTP
    exchange did into a reply text or a thrown error, and how the two service
    functions assemble their records from that text, defaulting missing
    lists and carrying the error message on failure. The exchange itself,
    the 60-second abort timer and JSON decoding are inputs. */
module DeepSeek {
  import opened Wrappers
  import opened Text
  import opened Types

  /** A thrown value: an `Error` instance with its name and message, or
      anything else. */
  datatype Thrown = ErrorValue(name: string, message: string) | OtherValue

  /** What the HTTP exchange produced. For an answered request: whether the
      status was 2xx, the status and status text, the error message found in
      the body of a failed response (none when the body does not decode or
      has no `error.message`), and for a successful one the text of the first
      choice, or what reading it threw. */
  datatype Exchange =
    | Answered(ok: bool, status: nat, statusText: string, errorMessage: Option<string>, firstChoice: Result<string, Thrown>)
    | FetchThrew(thrown: Thrown)

  const MissingKeyMessage: string :=
    "DeepSeek API Key not configured. Please set VITE_DEEPSEEK_API_KEY in your environment."
  const TimeoutMessage: string := "Request timeout. Please try again."
  const UnknownMessage: string := "Unknown error occurred"
  const HttpErrorPrefix: string := "DeepSeek API Error: "
  const AbortName: string := "AbortError"

  /** The text after the status in an HTTP failure: the body's error message
      unless it is missing or empty, otherwise the status text. */
  function HttpErrorDetail(errorMessage: Option<string>, statusText: string): (d: string)
    ensures errorMessage.Some? && errorMessage.value != [] ==> d == errorMessage.value
    ensures errorMessage.None? || errorMessage.value == [] ==> d == statusText
  {
    match errorMessage
    case Some(m) => if m != [] then m else statusText
    case None => statusText
  }

  function HttpErrorMessage(status: nat, detail: string): (m: string)
    ensures StartsWith(m, HttpErrorPrefix)
    ensures |m| == |HttpErrorPrefix| + |NatToString(status)| + 3 + |detail|
    ensures IsDecimal(m[|HttpErrorPrefix|..|HttpErrorPrefix| + |NatToString(status)|])
    ensures DigitsValue(m[|HttpErrorPrefix|..|HttpErrorPrefix| + |NatToString(status)|]) == status
    ensures m[|HttpErrorPrefix| + |NatToString(status)|..|HttpErrorPrefix| + |NatToString(status)| + 3] == " - "
    ensures m[|HttpErrorPrefix| + |NatToString(status)| + 3..] == detail
  {
    var digits := NatToString(status);
    var m := HttpErrorPrefix + digits + " - " + detail;
    var n := |HttpErrorPrefix|;
    assert m[..n] == HttpErrorPrefix;
    assert m[n..n + |digits|] == digits;
    assert m[n + |digits|..n + |digits| + 3] == " - ";
    assert m[n + |digits| + 3..] == detail;
    NatToStringRoundTrip(status);
    m
  }

  /** The `catch` of `callDeepSeekAPI`: an abort becomes the timeout error,
      any other `Error` passes through unchanged, and a non-`Error` value
      becomes the unknown error. */
  function Rethrown(t: Thrown): (r: Thrown)
    ensures r.ErrorValue?
    ensures t.ErrorValue? && t.name == AbortName ==> r.message == TimeoutMessage
    ensures t.ErrorValue? && t.name != AbortName ==> r == t
    ensures t.OtherValue? ==> r.message == UnknownMessage
  {
    match t
    case ErrorValue(name, _) => if name == AbortName then ErrorValue("Error", TimeoutMessage) else t
    case OtherValue => ErrorValue("Error", UnknownMessage)
  }

  datatype Call = Call(requested: bool, result: Result<string, Thrown>)

  /** `callDeepSeekAPI`: without a key it throws before any request is made;
      otherwise it sends the request and either returns the first choice's
      text or throws what the `catch` makes of the failure. */
  function CallDeepSeek(apiKey: string, exchange: Exchange): (r: Call)
    ensures r.requested <==> apiKey != []
    ensures r.result.Err? ==> r.result.error.ErrorValue?
  {
    if apiKey == [] then Call(false, Err(ErrorValue("Error", MissingKeyMessage)))
    else
      var result := match exchange
        case FetchThrew(t) => Err(Rethrown(t))
        case Answered(ok, status, statusText, errorMessage, firstChoice) =>
          if !ok then Err(ErrorValue("Error", HttpErrorMessage(status, HttpErrorDetail(errorMessage, statusText))))
          else match firstChoice
            case Ok(text) => Ok(text)
            case Err(t) => Err(Rethrown(t));
      Call(true, result)
  }

  /** The call fails with the missing-key error, and sends nothing, exactly
      when the key is empty; with a key every outcome of the exchange is
      reported as `callDeepSeekAPI` maps it. */
  lemma CallOutcomes(apiKey: string, exchange: Exchange)
    ensures var c := CallDeepSeek(apiKey, exchange);
      && (apiKey == [] <==> !c.requested)
      && (apiKey == [] ==> c.result == Err(ErrorValue("Error", MissingKeyMessage)))
      && (apiKey != [] && exchange.FetchThrew? ==> c.result == Err(Rethrown(exchange.thrown)))
      && (apiKey != [] && exchange.Answered? && exchange.ok ==>
            c.result == match exchange.firstChoice
              case Ok(text) => Ok(text)
              case Err(t) => Err(Rethrown(t)))
      && (c.result.Ok? <==> apiKey != [] && exchange.Answered? && exchange.ok && exchange.firstChoice.Ok?)
  {
  }

  /** An `AbortError`, whether thrown by `fetch` or while reading the body,
      surfaces as the timeout error. The 60-second timer is cleared before the
      body is read, so only the `fetch` case can come from that timer; the
      body case states how the catch maps such an error, not a reachable
      timeout. */
  lemma AbortIsTimeout(apiKey: string, exchange: Exchange)
    requires apiKey != []
    requires || (exchange.FetchThrew? && exchange.thrown.ErrorValue? && exchange.thrown.name == AbortName)
             || (exchange.Answered? && exchange.ok && exchange.firstChoice.Err? &&
                 exchange.firstChoice.error.ErrorValue? && exchange.firstChoice.error.name == AbortName)
    ensures CallDeepSeek(apiKey, exchange).result.Err?
    ensures CallDeepSeek(apiKey, exchange).result.error.message == TimeoutMessage
  {
  }

  /** An HTTP failure reports the status in decimal right after the fixed
      prefix, followed by ` - ` and the detail, so the status can be read back
      from the message. */
  lemma HttpFailureMessage(apiKey: string, exchange: Exchange)
    requires apiKey != [] && exchange.Answered? && !exchange.ok
    ensures var m := CallDeepSeek(apiKey, exchange).result.error.message;
      var digits := NatToString(exchange.status);
      && CallDeepSeek(apiKey, exchange).result.Err?
      && StartsWith(m, HttpErrorPrefix)
      && |m| >= |HttpErrorPrefix| + |digits| + 3
      && DigitsValue(m[|HttpErrorPrefix|..|HttpErrorPrefix| + |digits|]) == exchange.status
      && m[|HttpErrorPrefix| + |digits|..|HttpErrorPrefix| + |digits| + 3] == " - "
      && m[|HttpErrorPrefix| + |digits| + 3..] == HttpErrorDetail(exchange.errorMessage, exchange.statusText)
  {
  }

  /** The post reply as decoded from the returned text; the two lists may be
      absent. */
  datatype ContentReply = ContentReply(title: string, content: string, hashtags: Option<seq<string>>, imagePrompts: Option<seq<string>>)

  const FailureTitle: string := "生成失败"
  const FailureContent: string := "无法生成内容，请检查网络连接或重试。"
  const FailureScript: string := "脚本生成失败，请重试。"

  /** The text a failure post or script shows: the error's own message, or a
      fixed text for a thrown value that is not an `Error`. */
  function FailureText(t: Thrown, fallback: string): (s: string)
    ensures t.ErrorValue? ==> s == t.message
    ensures t.OtherValue? ==> s == fallback
  {
    match t
    case ErrorValue(_, message) => message
    case OtherValue => fallback
  }

  /** The reply text decoded, or what decoding threw. */
  function Decoded<T>(call: Call, decode: string -> Result<T, Thrown>): (r: Result<T, Thrown>)
    ensures r.Ok? <==> call.result.Ok? && decode(call.result.value).Ok?
    ensures r.Ok? ==> r.value == decode(call.result.value).value
    ensures call.result.Err? ==> r.error == call.result.error
    ensures call.result.Ok? && r.Err? ==> r.error == decode(call.result.value).error
  {
    match call.result
    case Ok(text) => decode(text)
    case Err(t) => Err(t)
  }

  /** `generateXiaohongshuContent`: the post built from the decoded reply,
      with missing lists defaulting to empty; on any failure the fixed title,
      the error's message as content and no lists. Topic and type are always
      echoed. */
  function GenerateContent(topic: ContentTopic, contentType: ContentType, apiKey: string, exchange: Exchange,
                           decode: string -> Result<ContentReply, Thrown>,
                           idClock: nat, stampClock: nat): (r: XiaohongshuContent)
    ensures r.topic == topic && r.contentType == contentType
    ensures r.timestamp == stampClock
    ensures r.id == NatToString(idClock)
  {
    match Decoded(CallDeepSeek(apiKey, exchange), decode)
    case Ok(x) =>
      XiaohongshuContent(NatToString(idClock), stampClock, topic, contentType, x.title, x.content,
                         x.hashtags.GetOr([]), x.imagePrompts.GetOr([]))
    case Err(t) =>
      XiaohongshuContent(NatToString(idClock), stampClock, topic, contentType, FailureTitle,
                         FailureText(t, FailureContent), [], [])
  }

  /** A missing list in the reply becomes an empty one; present fields are
      copied. */
  lemma ContentDefaults(topic: ContentTopic, contentType: ContentType, apiKey: string, exchange: Exchange,
                        decode: string -> Result<ContentReply, Thrown>, idClock: nat, stampClock: nat)
    requires CallDeepSeek(apiKey, exchange).result.Ok?
    requires decode(CallDeepSeek(apiKey, exchange).result.value).Ok?
    ensures var x := decode(CallDeepSeek(apiKey, exchange).result.value).value;
      var r := GenerateContent(topic, contentType, apiKey, exchange, decode, idClock, stampClock);
      && r.title == x.title && r.content == x.content
      && (x.hashtags.None? ==> r.hashtags == []) && (x.hashtags.Some? ==> r.hashtags == x.hashtags.value)
      && (x.imagePrompts.None? ==> r.imagePrompts == []) && (x.imagePrompts.Some? ==> r.imagePrompts == x.imagePrompts.value)
  {
  }

  /** Every failure, of the call or of decoding its reply, yields the
      failure post whose content is the thrown error's message (the fixed
      text for a non-error value); a failed call always throws an `Error`, so
      its message is shown, and a missing key yields the missing-key message
      without a request. */
  lemma ContentOnCallFailure(topic: ContentTopic, contentType: ContentType, apiKey: string, exchange: Exchange,
                             decode: string -> Result<ContentReply, Thrown>, idClock: nat, stampClock: nat)
    requires Decoded(CallDeepSeek(apiKey, exchange), decode).Err?
    ensures var r := GenerateContent(topic, contentType, apiKey, exchange, decode, idClock, stampClock);
      && r.title == FailureTitle
      && r.content == FailureText(Decoded(CallDeepSeek(apiKey, exchange), decode).error, FailureContent)
      && r.hashtags == [] && r.imagePrompts == []
    ensures CallDeepSeek(apiKey, exchange).result.Err? ==>
      GenerateContent(topic, contentType, apiKey, exchange, decode, idClock, stampClock).content
        == CallDeepSeek(apiKey, exchange).result.error.message
    ensures apiKey == [] ==>
      GenerateContent(topic, contentType, apiKey, exchange, decode, idClock, stampClock).content == MissingKeyMessage
  {
  }

  /** `convertToVideoScript`: the decoded reply's text and captions, missing
      captions defaulting to none and their total to 0; on any failure no
      captions, length 0 and the error's message as the script text. The
      declared length equals the total of the section durations on every
      path. */
  function ConvertToVideoScript(content: XiaohongshuContent, apiKey: string, exchange: Exchange,
                                decode: string -> Result<ScriptReply, Thrown>, clock: nat): (r: VideoScript)
    ensures ConsistentScript(r)
    ensures r.contentId == content.id
    ensures r.id == NatToString(clock)
  {
    match Decoded(CallDeepSeek(apiKey, exchange), decode)
    case Ok(x) =>
      var total := match x.sections
        case Some(sections) => TotalDuration(sections)
        case None => 0;
      VideoScript(NatToString(clock), content.id, x.script, total, x.sections.GetOr([]))
    case Err(t) =>
      VideoScript(NatToString(clock), content.id, FailureText(t, FailureScript), 0, [])
  }

  /** The script's captions are the reply's, in order, or none when the reply
      has none or the call or decoding failed; a failure's script text is
      the error message. */
  lemma ScriptOutcomes(content: XiaohongshuContent, apiKey: string, exchange: Exchange,
                       decode: string -> Result<ScriptReply, Thrown>, clock: nat)
    ensures var d := Decoded(CallDeepSeek(apiKey, exchange), decode);
      var r := ConvertToVideoScript(content, apiKey, exchange, decode, clock);
      && (d.Ok? ==> r.script == d.value.script && r.sections == d.value.sections.GetOr([]))
      && (d.Err? ==> r.sections == [] && r.estimatedDuration == 0 && r.script == FailureText(d.error, FailureScript))
      && (CallDeepSeek(apiKey, exchange).result.Err? ==> r.script == CallDeepSeek(apiKey, exchange).result.error.message)
  {
  }
}

=== FILE: frame_loop.dfy ===
/** The `animate` loop of `createVideoWithAudio`
    (services/videoSynthesisService.ts:149-179) as a state machine driven by
    the elapsed-time samples the host clock delivers, one per animation
    frame. Each tick first checks the stop rule, then draws a frame with the
    caption index held from the previous tick, then recomputes that index and
    reports progress. */
module FrameLoop {
  import opened Wrappers
  import opened Types
  import opened Timeline

  /** A frame drawn by one tick: the caption index it was drawn with and the
      elapsed milliseconds it was drawn at. */
  datatype DrawnFrame = DrawnFrame(section: nat, elapsed: nat)

  /** `current` is `currentSection`; `stopCalls` counts the times the
      recorder was stopped and the loop's audio context closed (the two
      happen together); `progress` is what the tick loop reported. */
  datatype LoopState = LoopState(
    current: nat,
    stopped: bool,
    stopCalls: nat,
    frames: seq<DrawnFrame>,
    progress: seq<real>)

  const Initial: LoopState := LoopState(0, false, 0, [], [])

  /** The run length in milliseconds: `script.estimatedDuration * 1000`. */
  function RunMillis(script: VideoScript): int {
    script.estimatedDuration * MillisPerSecond
  }

  /** The clock never goes back. */
  predicate NonDecreasing(samples: seq<nat>) {
    forall i, j :: 0 <= i <= j < |samples| ==> samples[i] <= samples[j]
  }

  /** One call of `animate` at `elapsed`. Once stopped no further frame is
      requested, so later samples leave the state alone. */
  function Tick(script: VideoScript, st: LoopState, elapsed: nat): (r: LoopState)
    ensures st.stopped ==> r == st
    ensures r.stopped <==> st.stopped || elapsed >= RunMillis(script)
    ensures r.stopCalls == st.stopCalls + (if r.stopped && !st.stopped then 1 else 0)
    ensures |r.frames| == |st.frames| + (if r.stopped then 0 else 1)
    ensures |r.progress| - |st.progress| == |r.frames| - |st.frames|
    ensures r.frames[..|st.frames|] == st.frames && r.progress[..|st.progress|] == st.progress
    ensures !r.stopped ==>
      && r.frames[|st.frames|] == DrawnFrame(st.current, elapsed)
      && ProgressCompositing <= r.progress[|st.progress|] < ProgressCompositingCap
    ensures r.stopped ==> r.current == st.current
    ensures !r.stopped ==>
      && r.current == NextSection(st.current, script.sections, elapsed)
      && r.progress[|st.progress|] == Ramp(elapsed, RunMillis(script))
  {
    if st.stopped then st
    else if elapsed >= RunMillis(script) then
      st.(stopped := true, stopCalls := st.stopCalls + 1)
    else
      st.(frames := st.frames + [DrawnFrame(st.current, elapsed)],
          current := NextSection(st.current, script.sections, elapsed),
          progress := st.progress + [Ramp(elapsed, RunMillis(script))])
  }

  /** The loop state after one tick per sample, in order. */
  function Run(script: VideoScript, samples: seq<nat>): (r: LoopState)
    ensures |r.frames| <= |samples|
    ensures |r.progress| == |r.frames|
    ensures r.stopCalls == (if r.stopped then 1 else 0)
    decreases |samples|
  {
    if |samples| == 0 then Initial
    else Tick(script, Run(script, samples[..|samples| - 1]), samples[|samples| - 1])
  }

  /** `currentSection` after a tick at each of `samples` in turn, every one
      of which drew a frame. */
  function SectionAfter(sections: seq<ScriptSection>, samples: seq<nat>): nat
    decreases |samples|
  {
    if |samples| == 0 then 0
    else NextSection(SectionAfter(sections, samples[..|samples| - 1]), sections, samples[|samples| - 1])
  }

  /** How many frames a run draws: one per sample until the first sample
      that reaches the run length, which stops the loop exactly once. */
  lemma {:induction false} RunCounts(script: VideoScript, samples: seq<nat>)
    ensures var st := Run(script, samples);
      && |st.frames| <= |samples|
      && |st.progress| == |st.frames|
      && (st.stopped <==> |st.frames| < |samples|)
      && (forall j :: 0 <= j < |st.frames| ==> samples[j] < RunMillis(script))
      && (st.stopped ==> samples[|st.frames|] >= RunMillis(script))
      && st.stopCalls == (if st.stopped then 1 else 0)
    decreases |samples|
  {
    if |samples| > 0 {
      var prev := samples[..|samples| - 1];
      RunCounts(script, prev);
      var p := Run(script, prev);
      if p.stopped {
        assert prev[|p.frames|] == samples[|p.frames|];
      }
    }
  }

  /** Frame `j` is drawn at sample `j`, strictly before the run length, and
      is followed by a progress report for that sample. */
  lemma {:induction false} RunFrameTimes(script: VideoScript, samples: seq<nat>)
    ensures |Run(script, samples).frames| <= |samples|
    ensures |Run(script, samples).progress| == |Run(script, samples).frames|
    ensures var st := Run(script, samples);
      forall j :: 0 <= j < |st.frames| ==>
        && samples[j] < RunMillis(script)
        && st.frames[j].elapsed == samples[j]
        && st.progress[j] == Ramp(samples[j], RunMillis(script))
    decreases |samples|
  {
    RunCounts(script, samples);
    if |samples| > 0 {
      var prev := samples[..|samples| - 1];
      RunFrameTimes(script, prev);
      RunCounts(script, prev);
    }
  }

  /** After a run `currentSection` holds the index computed by the ticks
      that drew a frame. */
  lemma {:induction false} RunCurrent(script: VideoScript, samples: seq<nat>)
    ensures |Run(script, samples).frames| <= |samples|
    ensures Run(script, samples).current == SectionAfter(script.sections, samples[..|Run(script, samples).frames|])
    decreases |samples|
  {
    if |samples| > 0 {
      var n := |samples|;
      var prev := samples[..n - 1];
      RunCurrent(script, prev);
      var p := Run(script, prev);
      if !p.stopped && samples[n - 1] < RunMillis(script) {
        RunCounts(script, prev);
        assert |p.frames| == n - 1;
        assert prev[..n - 1] == prev;
        assert samples[..n] == samples;
      } else {
        assert prev[..|p.frames|] == samples[..|p.frames|];
      }
    }
  }

  /** Frame `j` is drawn with the caption index computed by the ticks
      before it. */
  lemma {:induction false} RunFrameSection(script: VideoScript, samples: seq<nat>, j: nat)
    requires j < |Run(script, samples).frames|
    ensures j < |samples|
    ensures Run(script, samples).frames[j].section == SectionAfter(script.sections, samples[..j])
    decreases |samples|
  {
    var n := |samples|;
    var prev := samples[..n - 1];
    var p := Run(script, prev);
    var st := Run(script, samples);
    assert st == Tick(script, p, samples[n - 1]);
    assert prev[..j] == samples[..j];
    if j < |p.frames| {
      RunFrameSection(script, prev, j);
      assert st.frames[..|p.frames|][j] == p.frames[j];
    } else {
      RunCurrent(script, prev);
      assert j == |p.frames|;
    }
  }

  /** Frame `j` carries the caption index computed by the ticks before it,
      so frame 0 always shows section 0; after the run `currentSection`
      holds the index computed by the last drawing tick. */
  lemma RunFrameSections(script: VideoScript, samples: seq<nat>)
    ensures |Run(script, samples).frames| <= |samples|
    ensures var st := Run(script, samples);
      && (forall j :: 0 <= j < |st.frames| ==>
            st.frames[j].section == SectionAfter(script.sections, samples[..j]))
      && st.current == SectionAfter(script.sections, samples[..|st.frames|])
  {
    RunCurrent(script, samples);
    forall j | 0 <= j < |Run(script, samples).frames|
      ensures Run(script, samples).frames[j].section == SectionAfter(script.sections, samples[..j])
    {
      RunFrameSection(script, samples, j);
    }
  }

  /** What a run of the loop looks like: the frames are drawn exactly at the
      samples before the first one that reaches the run length, frame `j`
      carries the index computed by the ticks before it (so frame 0 shows
      section 0), the loop stops at most once, and after it stops nothing
      more is drawn or reported. */
  lemma RunShape(script: VideoScript, samples: seq<nat>)
    ensures var st := Run(script, samples);
      && |st.frames| <= |samples|
      && |st.progress| == |st.frames|
      && (forall j :: 0 <= j < |st.frames| ==>
            && samples[j] < RunMillis(script)
            && st.frames[j] == DrawnFrame(SectionAfter(script.sections, samples[..j]), samples[j])
            && st.progress[j] == Ramp(samples[j], RunMillis(script)))
      && (st.stopped <==> |st.frames| < |samples|)
      && (st.stopped ==> samples[|st.frames|] >= RunMillis(script))
      && st.stopCalls == (if st.stopped then 1 else 0)
      && st.current == SectionAfter(script.sections, samples[..|st.frames|])
  {
    RunCounts(script, samples);
    RunFrameTimes(script, samples);
    RunFrameSections(script, samples);
  }

  /** The loop stops (once) exactly when some sample reaches the run length. */
  lemma RunStopsIff(script: VideoScript, samples: seq<nat>)
    ensures Run(script, samples).stopped <==>
      exists k :: 0 <= k < |samples| && samples[k] >= RunMillis(script)
    ensures Run(script, samples).stopCalls <= 1
  {
    RunShape(script, samples);
    var st := Run(script, samples);
    if !st.stopped {
      assert forall k :: 0 <= k < |samples| ==> samples[k] < RunMillis(script) by {
        forall k | 0 <= k < |samples| ensures samples[k] < RunMillis(script) {
          assert st.frames[k].elapsed == samples[k];
        }
      }
    }
  }

  /** Once the caption index has been computed at some time, no later
      selection can be smaller than it. */
  lemma SectionAfterBelowLaterSelection(sections: seq<ScriptSection>, samples: seq<nat>, e: nat)
    requires |samples| > 0 ==> samples[|samples| - 1] <= e
    requires SelectSection(sections, e).Some?
    ensures SectionAfter(sections, samples) <= SelectSection(sections, e).value
  {
    if |samples| > 0 {
      SelectSectionMonotone(sections, samples[|samples| - 1], e);
    }
  }

  /** The caption index never decreases while the clock moves forward. */
  lemma {:induction false} SectionAfterMonotone(sections: seq<ScriptSection>, samples: seq<nat>, j: nat, k: nat)
    requires NonDecreasing(samples)
    requires j <= k <= |samples|
    ensures SectionAfter(sections, samples[..j]) <= SectionAfter(sections, samples[..k])
    decreases k - j
  {
    if j < k {
      SectionAfterMonotone(sections, samples, j, k - 1);
      var prefix := samples[..k];
      assert prefix[..k - 1] == samples[..k - 1];
      var e := samples[k - 1];
      if SelectSection(sections, e).Some? {
        SectionAfterBelowLaterSelection(sections, samples[..k - 1], e);
      }
    }
  }

  /** With at least one section the caption index always names one. */
  lemma {:induction false} SectionAfterInRange(sections: seq<ScriptSection>, samples: seq<nat>)
    requires |sections| > 0
    ensures SectionAfter(sections, samples) < |sections|
    decreases |samples|
  {
    if |samples| > 0 {
      SectionAfterInRange(sections, samples[..|samples| - 1]);
    }
  }

  /** Frames never go back to an earlier caption, and with at least one
      section every frame's caption index names an existing section. */
  lemma RunFramesMonotone(script: VideoScript, samples: seq<nat>)
    requires NonDecreasing(samples)
    ensures var st := Run(script, samples);
      forall j, k :: 0 <= j <= k < |st.frames| ==> st.frames[j].section <= st.frames[k].section
    ensures var st := Run(script, samples);
      forall j :: 0 <= j < |st.frames| ==> st.frames[j].section <= st.current
    ensures |script.sections| > 0 ==> var st := Run(script, samples);
      st.current < |script.sections| &&
      forall j :: 0 <= j < |st.frames| ==> st.frames[j].section < |script.sections|
  {
    RunShape(script, samples);
    var st := Run(script, samples);
    forall j, k | 0 <= j <= k <= |st.frames|
      ensures SectionAfter(script.sections, samples[..j]) <= SectionAfter(script.sections, samples[..k])
    {
      SectionAfterMonotone(script.sections, samples, j, k);
    }
    if |script.sections| > 0 {
      forall j | 0 <= j <= |st.frames|
        ensures SectionAfter(script.sections, samples[..j]) < |script.sections|
      {
        SectionAfterInRange(script.sections, samples[..j]);
      }
    }
  }

  /** One drawing tick before the section total has elapsed selects a
      section, and that section becomes the caption index. */
  lemma TickSelects(sections: seq<ScriptSection>, samples: seq<nat>, j: nat)
    requires j < |samples|
    requires samples[j] < TotalDuration(sections) * MillisPerSecond
    ensures SelectSection(sections, samples[j]).Some?
    ensures SectionAfter(sections, samples[..j + 1]) == SelectSection(sections, samples[j]).value
  {
    SectionFoundBeforeTotal(sections, samples[j]);
    var pre := samples[..j + 1];
    assert pre[..j] == samples[..j];
    assert pre[j] == samples[j];
  }

  /** When the declared length equals the sum of the section durations, every
      tick that draws a frame finds a section, so frame `j + 1` shows exactly
      the section selected at the time frame `j` was drawn. */
  lemma RunShowsSelectedSection(script: VideoScript, samples: seq<nat>)
    requires script.estimatedDuration == TotalDuration(script.sections)
    ensures |Run(script, samples).frames| <= |samples|
    ensures var st := Run(script, samples);
      forall j :: 0 <= j < |st.frames| ==> SelectSection(script.sections, samples[j]).Some?
    ensures var st := Run(script, samples);
      forall j :: 0 <= j && j + 1 < |st.frames| ==>
        st.frames[j + 1].section == SelectSection(script.sections, samples[j]).value
  {
    RunFrameTimes(script, samples);
    RunFrameSections(script, samples);
    var st := Run(script, samples);
    forall j | 0 <= j < |st.frames|
      ensures SelectSection(script.sections, samples[j]).Some?
      ensures j + 1 < |st.frames| ==>
        st.frames[j + 1].section == SelectSection(script.sections, samples[j]).value
    {
      TickSelects(script.sections, samples, j);
    }
  }

  /** Progress reported by the loop stays in `[50, 90)` and never decreases
      while the clock moves forward. */
  lemma RunProgressMonotone(script: VideoScript, samples: seq<nat>)
    requires NonDecreasing(samples)
    ensures forall j :: 0 <= j < |Run(script, samples).progress| ==>
      ProgressCompositing <= Run(script, samples).progress[j] < ProgressCompositingCap
    ensures forall j, k :: 0 <= j <= k < |Run(script, samples).progress| ==>
      Run(script, samples).progress[j] <= Run(script, samples).progress[k]
  {
    RunShape(script, samples);
    var st := Run(script, samples);
    forall j, k | 0 <= j <= k < |st.progress|
      ensures st.progress[j] <= st.progress[k]
    {
      RampMonotone(samples[j], samples[k], RunMillis(script));
    }
  }
}

=== FILE: generator_ui.dfy ===
/** The pure handlers of components/XiaohongshuGenerator.tsx: the screen's
    state, the edits of the generated post and script, the copied text, the
    download name, the upload check, the step indicator, and the three
    handlers that call the services. The screen uses the Gemini-backed
    content service and the video pipeline. */
module GeneratorUi {
  import opened Wrappers
  import opened Text
  import opened Types
  import opened FrameLoop
  import opened Synthesis
  import ContentGenerator

  /** The three steps of the screen, numbered 1 to 3. */
  datatype Step = ContentGeneration | ScriptEditing | VideoSynthesis {
    function Number(): (n: nat)
      ensures 1 <= n <= 3
    {
      match this
      case ContentGeneration => 1
      case ScriptEditing => 2
      case VideoSynthesis => 3
    }
  }

  const Steps: seq<Step> := [ContentGeneration, ScriptEditing, VideoSynthesis]

  datatype UiState = UiState(
    step: Step,
    topic: ContentTopic,
    contentType: ContentType,
    content: Option<XiaohongshuContent>,
    script: Option<VideoScript>,
    videoExport: Option<VideoExport>,
    generating: bool,
    background: Option<ImageFile>,
    videoProgress: real,
    alerts: seq<string>)

  const InitialUi: UiState :=
    UiState(ContentGeneration, HearingImpairment, Professional, None, None, None, false, None, 0.0, [])

  const UploadRejected: string := "请上传有效的图片文件"
  const SynthesisAlertPrefix: string := "视频合成失败："
  const DownloadPrefix: string := "xiaohongshu_video_"
  const DownloadSuffix: string := ".webm"
  const ImageMimePrefix: string := "image/"

  // ---- Edits ----

  function EditTitle(c: XiaohongshuContent, title: string): (r: XiaohongshuContent)
    ensures r.title == title
    ensures r.(title := c.title) == c
  {
    c.(title := title)
  }

  function EditContent(c: XiaohongshuContent, text: string): (r: XiaohongshuContent)
    ensures r.content == text
    ensures r.(content := c.content) == c
  {
    c.(content := text)
  }

  /** Editing the whole spoken text touches nothing else. */
  function EditScriptText(s: VideoScript, text: string): (r: VideoScript)
    ensures r.script == text
    ensures r.(script := s.script) == s
  {
    s.(script := text)
  }

  /** Editing caption `i` replaces only its text: the number of sections,
      every duration, every other section and the declared length stay as
      they were. */
  function EditSectionText(s: VideoScript, i: nat, text: string): (r: VideoScript)
    requires i < |s.sections|
    ensures |r.sections| == |s.sections|
    ensures r.sections[i].text == text
    ensures forall j :: 0 <= j < |s.sections| ==> r.sections[j].duration == s.sections[j].duration
    ensures forall j :: 0 <= j < |s.sections| && j != i ==> r.sections[j] == s.sections[j]
    ensures r.(sections := s.sections) == s
    ensures TotalDuration(r.sections) == TotalDuration(s.sections)
  {
    var sections := s.sections[i := s.sections[i].(text := text)];
    TotalDurationIgnoresText(sections, s.sections);
    s.(sections := sections)
  }

  /** One edit made on the script editing step. */
  datatype ScriptEdit = SetScriptText(text: string) | SetSectionText(index: nat, text: string)

  predicate EditFits(e: ScriptEdit, n: nat) {
    e.SetSectionText? ==> e.index < n
  }

  /** The screen only offers edits of captions that exist. */
  predicate EditsFit(edits: seq<ScriptEdit>, n: nat) {
    forall k :: 0 <= k < |edits| ==> EditFits(edits[k], n)
  }

  /** One `onChange` of the script editor: the edited text lands where it
      was typed, and the ids, the declared length, the section count and
      every duration stay. */
  function ApplyEdit(s: VideoScript, e: ScriptEdit): (r: VideoScript)
    requires EditFits(e, |s.sections|)
    ensures |r.sections| == |s.sections|
    ensures r.id == s.id && r.contentId == s.contentId && r.estimatedDuration == s.estimatedDuration
    ensures forall j :: 0 <= j < |s.sections| ==> r.sections[j].duration == s.sections[j].duration
    ensures e.SetScriptText? ==> r.script == e.text && r.sections == s.sections
    ensures e.SetSectionText? ==>
      && r.script == s.script
      && r.sections[e.index].text == e.text
      && (forall j :: 0 <= j < |s.sections| && j != e.index ==> r.sections[j] == s.sections[j])
  {
    match e
    case SetScriptText(text) => EditScriptText(s, text)
    case SetSectionText(i, text) => EditSectionText(s, i, text)
  }

  /** Edits applied in the order they were made. Every edit keeps the
      section count, so every later edit still fits. */
  function ApplyEdits(s: VideoScript, edits: seq<ScriptEdit>): (r: VideoScript)
    requires EditsFit(edits, |s.sections|)
    ensures |r.sections| == |s.sections|
    ensures r.id == s.id && r.contentId == s.contentId && r.estimatedDuration == s.estimatedDuration
    ensures forall j :: 0 <= j < |s.sections| ==> r.sections[j].duration == s.sections[j].duration
    decreases |edits|
  {
    if |edits| == 0 then s
    else ApplyEdits(ApplyEdit(s, edits[0]), edits[1..])
  }

  /** No sequence of edits changes the declared length or the total of the
      durations, so a consistent script stays consistent. */
  lemma {:induction false} EditsKeepConsistent(s: VideoScript, edits: seq<ScriptEdit>)
    requires EditsFit(edits, |s.sections|)
    ensures TotalDuration(ApplyEdits(s, edits).sections) == TotalDuration(s.sections)
    ensures ConsistentScript(s) ==> ConsistentScript(ApplyEdits(s, edits))
    decreases |edits|
  {
    if |edits| > 0 {
      var s1 := ApplyEdit(s, edits[0]);
      EditsKeepConsistent(s1, edits[1..]);
    }
  }

  // ---- Copy, download, upload ----

  function Hashtag(tag: string): string {
    "#" + tag
  }

  function Hashtags(tags: seq<string>): (r: seq<string>)
    ensures |r| == |tags|
    ensures forall i :: 0 <= i < |tags| ==> r[i] == Hashtag(tags[i])
  {
    if |tags| == 0 then [] else [Hashtag(tags[0])] + Hashtags(tags[1..])
  }

  /** The text `handleCopyContent` puts on the clipboard. */
  function CopyText(c: XiaohongshuContent): (t: string)
    ensures |t| >= |c.title| + 2 + |c.content| + 2
    ensures t[..|c.title|] == c.title
    ensures t[|c.title|..|c.title| + 2] == "\n\n"
    ensures t[|c.title| + 2..|c.title| + 2 + |c.content|] == c.content
    ensures t[|c.title| + 2 + |c.content|..|c.title| + 4 + |c.content|] == "\n\n"
    ensures t[|c.title| + 4 + |c.content|..] == Join(Hashtags(c.hashtags), ' ')
  {
    var line := Join(Hashtags(c.hashtags), ' ');
    var t := c.title + "\n\n" + c.content + "\n\n" + line;
    var a := |c.title|;
    var b := |c.content|;
    assert t[..a] == c.title;
    assert t[a..a + 2] == "\n\n";
    assert t[a + 2..a + 2 + b] == c.content;
    assert t[a + 2 + b..a + 4 + b] == "\n\n";
    assert t[a + 4 + b..] == line;
    t
  }

  /** The copied text starts with the title and a blank line, then the body
      and a blank line, then the tag line; when no tag contains a space the
      tag line splits back into the tags, each with its `#`. */
  lemma CopyTextLayout(c: XiaohongshuContent)
    ensures var t := CopyText(c);
      var n := |c.title| + 2 + |c.content| + 2;
      && |t| >= n
      && t[..|c.title|] == c.title
      && t[|c.title|..|c.title| + 2] == "\n\n"
      && t[|c.title| + 2..|c.title| + 2 + |c.content|] == c.content
      && t[n - 2..n] == "\n\n"
      && t[n..] == Join(Hashtags(c.hashtags), ' ')
    ensures |c.hashtags| >= 1 && (forall i :: 0 <= i < |c.hashtags| ==> ' ' !in c.hashtags[i]) ==>
      Split(CopyText(c)[|c.title| + 2 + |c.content| + 2..], ' ') == Hashtags(c.hashtags)
  {
    var t := CopyText(c);
    var line := Join(Hashtags(c.hashtags), ' ');
    var a := |c.title|;
    var b := |c.content|;
    assert t == c.title + "\n\n" + c.content + "\n\n" + line;
    assert t[..a] == c.title;
    assert t[a..a + 2] == "\n\n";
    assert t[a + 2..a + 2 + b] == c.content;
    assert t[a + 2 + b..a + 4 + b] == "\n\n";
    assert t[a + 4 + b..] == line;
    if |c.hashtags| >= 1 && (forall i :: 0 <= i < |c.hashtags| ==> ' ' !in c.hashtags[i]) {
      var tagged := Hashtags(c.hashtags);
      forall i | 0 <= i < |tagged|
        ensures ' ' !in tagged[i]
      {
        assert tagged[i] == "#" + c.hashtags[i];
      }
      SplitJoin(tagged, ' ');
    }
  }

  /** The name the downloaded video gets. */
  function DownloadName(x: VideoExport): (n: string)
    ensures |n| == |DownloadPrefix| + |x.id| + |DownloadSuffix|
    ensures StartsWith(n, DownloadPrefix)
    ensures n[|n| - |DownloadSuffix|..] == DownloadSuffix
    ensures n[|DownloadPrefix|..|n| - |DownloadSuffix|] == x.id
  {
    var n := DownloadPrefix + x.id + DownloadSuffix;
    assert n[..|DownloadPrefix|] == DownloadPrefix;
    assert n[|n| - |DownloadSuffix|..] == DownloadSuffix;
    assert n[|DownloadPrefix|..|n| - |DownloadSuffix|] == x.id;
    n
  }

  /** The export id sits between the fixed prefix and suffix, so two exports
      with different ids are saved under different names. */
  lemma DownloadNameRoundTrip(x: VideoExport, y: VideoExport)
    ensures var n := DownloadName(x);
      && |n| == |DownloadPrefix| + |x.id| + |DownloadSuffix|
      && StartsWith(n, DownloadPrefix)
      && n[|n| - |DownloadSuffix|..] == DownloadSuffix
      && n[|DownloadPrefix|..|n| - |DownloadSuffix|] == x.id
    ensures DownloadName(x) == DownloadName(y) <==> x.id == y.id
  {
    var n := DownloadName(x);
    assert n[..|DownloadPrefix|] == DownloadPrefix;
    assert n[|n| - |DownloadSuffix|..] == DownloadSuffix;
    assert n[|DownloadPrefix|..|n| - |DownloadSuffix|] == x.id;
    if DownloadName(x) == DownloadName(y) {
      var m := DownloadName(y);
      assert m[|DownloadPrefix|..|m| - |DownloadSuffix|] == y.id;
    }
  }

  /** `handleImageUpload`: a picked file whose type starts with `image/`
      becomes the background; anything else, or no file, raises the alert
      and keeps the previous background. */
  function HandleImageUpload(st: UiState, file: Option<ImageFile>): (r: UiState)
    ensures (file.Some? && StartsWith(file.value.mimeType, ImageMimePrefix)) <==> r.background == file && r.alerts == st.alerts
    ensures !(file.Some? && StartsWith(file.value.mimeType, ImageMimePrefix)) ==>
      r.background == st.background && r.alerts == st.alerts + [UploadRejected]
    ensures r.(background := st.background, alerts := st.alerts) == st
  {
    if file.Some? && StartsWith(file.value.mimeType, ImageMimePrefix) then st.(background := file)
    else st.(alerts := st.alerts + [UploadRejected])
  }

  // ---- Step indicator ----

  /** One entry of the indicator: the circle with its number, whether it is
      filled, whether it carries the ring, and the connector after it, if
      any, with whether it is filled. */
  datatype Marker = Marker(number: nat, filled: bool, ringed: bool, connector: Option<bool>)

  function MarkerFor(current: Step, index: nat): Marker
    requires index < |Steps|
  {
    var step := Steps[index];
    Marker(index + 1, current.Number() >= step.Number(), current == step,
           if index < 2 then Some(current.Number() > step.Number()) else None)
  }

  /** The indicator: one marker per step, in order. The filled circles are
      exactly the first `current` ones, the ring is on the current step's
      circle alone, the two connectors sit after the first two circles, and
      connector `i` is filled exactly when the current step lies beyond
      circle `i + 1`. */
  function StepIndicator(current: Step): (r: seq<Marker>)
    ensures |r| == 3
    ensures forall i :: 0 <= i < 3 ==> r[i].number == i + 1
    ensures forall i :: 0 <= i < 3 ==> (r[i].filled <==> i < current.Number())
    ensures forall i :: 0 <= i < 3 ==> (r[i].ringed <==> i + 1 == current.Number())
    ensures forall i :: 0 <= i < 3 ==> (r[i].connector.Some? <==> i < 2)
    ensures forall i :: 0 <= i < 2 ==> (r[i].connector.value <==> current.Number() > i + 1)
  {
    var r := [MarkerFor(current, 0), MarkerFor(current, 1), MarkerFor(current, 2)];
    StepNumbers(current);
    r
  }

  lemma StepNumbers(current: Step)
    ensures Steps[0].Number() == 1 && Steps[1].Number() == 2 && Steps[2].Number() == 3
    ensures forall i :: 0 <= i < 3 ==> (current == Steps[i] <==> i + 1 == current.Number())
  {
  }

  /** The indicator reads as a progress bar: a connector is filled exactly
      when the circle after it is, and the filled circles run from the first
      one up to the ringed one. */
  lemma StepIndicatorShape(current: Step)
    ensures var r := StepIndicator(current);
      && (forall i :: 0 <= i < 2 ==> (r[i].connector.value <==> r[i + 1].filled))
      && (forall i, j :: 0 <= i <= j < 3 && r[j].filled ==> r[i].filled)
      && (forall i :: 0 <= i < 3 && r[i].ringed ==> r[i].filled && (i == 2 || !r[i + 1].filled))
  {
  }

  // ---- Service-calling handlers ----

  /** `handleGenerateContent`: the post from the content service replaces the
      current one. The service never throws, so the alert is never raised. */
  function HandleGenerateContent(st: UiState, reply: Option<ContentGenerator.ContentReply>,
                                 idClock: nat, stampClock: nat): (r: UiState)
    ensures r.content.Some?
    ensures r.content.value.topic == st.topic && r.content.value.contentType == st.contentType
    ensures r.(content := st.content) == st.(generating := false)
  {
    st.(content := Some(ContentGenerator.GenerateContent(st.topic, st.contentType, reply, idClock, stampClock)),
        generating := false)
  }

  /** `handleConvertToScript`: nothing without a post; otherwise the script
      from the content service is set and the screen moves to the script
      editing step. */
  function HandleConvertToScript(st: UiState, reply: Option<ScriptReply>, clock: nat): (r: UiState)
    ensures st.content.None? ==> r == st
    ensures st.content.Some? ==>
      && r.step == ScriptEditing
      && r.script.Some?
      && r.script.value.contentId == st.content.value.id
      && ConsistentScript(r.script.value)
      && r.(script := st.script, step := st.step) == st.(generating := false)
  {
    match st.content
    case None => st
    case Some(c) =>
      st.(script := Some(ContentGenerator.ConvertToVideoScript(c, reply, clock)), step := ScriptEditing, generating := false)
  }

  /** `handleSynthesizeVideo`: nothing without a script; otherwise the
      progress bar is reset to 0 and then follows the pipeline's reports, and
      the run's export is kept, or its message is alerted. While the run has
      not settled the screen stays busy. `shown` is every value the progress
      bar took. */
  datatype SynthesisUi = SynthesisUi(state: UiState, shown: seq<real>)

  function HandleSynthesize(st: UiState, host: Host): (r: SynthesisUi)
    ensures st.script.None? ==> r.state == st && r.shown == []
    ensures st.script.Some? ==>
      var run := SynthesizeVideoAndCleanUp(st.script.value, st.background, host);
      && r.shown == [0.0] + run.trace.progress
      && r.state.videoProgress == r.shown[|r.shown| - 1]
      && r.state.generating == run.outcome.Pending?
      && (run.outcome.Done? ==> r.state.videoExport == Some(run.outcome.video) && r.state.alerts == st.alerts)
      && (run.outcome.Failed? ==>
            r.state.videoExport == st.videoExport && r.state.alerts == st.alerts + [SynthesisAlertPrefix + run.outcome.message])
      && r.state.script == st.script && r.state.step == st.step
  {
    match st.script
    case None => SynthesisUi(st, [])
    case Some(s) =>
      var run := SynthesizeVideoAndCleanUp(s, st.background, host);
      var shown := [0.0] + run.trace.progress;
      var st1 := st.(videoProgress := shown[|shown| - 1], generating := run.outcome.Pending?);
      match run.outcome
      case Done(x) => SynthesisUi(st1.(videoExport := Some(x)), shown)
      case Failed(m) => SynthesisUi(st1.(alerts := st.alerts + [SynthesisAlertPrefix + m]), shown)
      case Pending => SynthesisUi(st1, shown)
  }

  /** End to end: convert a post to a script, make any edits, and synthesize.
      A video that comes out has the length of the sum of the section
      durations of the script as edited, and its failure alert always names
      the pipeline's one message. */
  lemma ExportDurationIsSectionSum(st: UiState, reply: Option<ScriptReply>, clock: nat,
                                   edits: seq<ScriptEdit>, host: Host)
    requires st.content.Some?
    requires EditsFit(edits, |HandleConvertToScript(st, reply, clock).script.value.sections|)
    ensures var st1 := HandleConvertToScript(st, reply, clock);
      var s := ApplyEdits(st1.script.value, edits);
      var r := HandleSynthesize(st1.(script := Some(s)), host);
      var outcome := SynthesizeVideoAndCleanUp(s, st1.background, host).outcome;
      && (outcome.Done? ==>
            && r.state.videoExport.Some?
            && r.state.videoExport.value.scriptId == s.id
            && r.state.videoExport.value.duration == TotalDuration(s.sections))
      && (r.state.videoExport != st1.videoExport ==> outcome.Done?)
      && (|r.state.alerts| > |st1.alerts| ==>
            r.state.alerts == st1.alerts + [SynthesisAlertPrefix + FailureMessage])
  {
    var st1 := HandleConvertToScript(st, reply, clock);
    var s := ApplyEdits(st1.script.value, edits);
    EditsKeepConsistent(st1.script.value, edits);
    SynthesisSucceedsIff(s, st1.background, host);
    FailureCollapsed(s, st1.background, host);
  }

  /** The progress bar starts from 0 on every run and, with a clock that
      never goes back, never moves backwards; it reaches 100 exactly when a
      video comes out. */
  lemma ShownProgressAscending(st: UiState, host: Host)
    requires st.script.Some?
    requires NonDecreasing(host.samples)
    ensures var r := HandleSynthesize(st, host);
      && r.shown[0] == 0.0
      && Ascending(r.shown)
      && (r.state.videoProgress == 100.0 <==>
            SynthesizeVideoAndCleanUp(st.script.value, st.background, host).outcome.Done?)
  {
    var s := st.script.value;
    ProgressSchedule(s, st.background, host);
    var p := SynthesizeVideo(s, st.background, host).trace.progress;
    var shown := [0.0] + p;
    forall i, j | 0 <= i <= j < |shown|
      ensures shown[i] <= shown[j]
    {
      if i > 0 {
        assert shown[i] == p[i - 1] && shown[j] == p[j - 1];
      } else {
        assert shown[j] >= 0.0;
      }
    }
    if !SynthesizeVideo(s, st.background, host).outcome.Done? {
      assert shown[|shown| - 1] == p[|p| - 1];
      assert p[|p| - 1] in p;
    }
  }
}

=== FILE: synthesis.dfy ===
/** The video synthesis pipeline of services/videoSynthesisService.ts:
    `textToSpeech`, `createVideoWithAudio`, `synthesizeVideo`, `cleanup` and
    the exported `synthesizeVideo` wrapper. Everything the browser decides
    (whether speech exists, how the utterance ends, whether the image
    decodes, whether playback starts, whether the codec is supported, the
    clock) is an input; media objects are handles that are created and
    released. */
module Synthesis {
  import opened Wrappers
  import opened Text
  import opened Types
  import opened Timeline
  import opened FrameLoop
  import opened Caption

  /** The one message every failure of the pipeline surfaces as. */
  const FailureMessage: string := "视频合成失败，请重试"

  /** Utterance settings: Mandarin, slightly slow, neutral pitch. */
  const UtteranceLang: string := "zh-CN"
  const UtteranceRate: real := 0.9
  const UtterancePitch: real := 1.0

  datatype Voice = Voice(name: string, lang: string)

  predicate IsChineseVoice(v: Voice) {
    StartsWith(v.lang, "zh")
  }

  /** `voices.find(v => v.lang.startsWith('zh'))`, as an index. */
  function ChineseVoiceIndex(voices: seq<Voice>): (r: Option<nat>)
    ensures r.Some? ==> r.value < |voices| && IsChineseVoice(voices[r.value])
    ensures r.Some? ==> forall j :: 0 <= j < r.value ==> !IsChineseVoice(voices[j])
    ensures r.None? <==> forall j :: 0 <= j < |voices| ==> !IsChineseVoice(voices[j])
  {
    if |voices| == 0 then None
    else if IsChineseVoice(voices[0]) then Some(0)
    else match ChineseVoiceIndex(voices[1..])
      case Some(i) => Some(i + 1)
      case None => None
  }

  /** The voice put on the utterance; none leaves the engine's default. */
  function ChooseVoice(voices: seq<Voice>): (r: Option<Voice>)
    ensures r.Some? <==> exists i :: 0 <= i < |voices| && IsChineseVoice(voices[i])
    ensures r.Some? ==> exists i :: 0 <= i < |voices| && voices[i] == r.value && IsChineseVoice(r.value) &&
                                    (forall j :: 0 <= j < i ==> !IsChineseVoice(voices[j]))
  {
    match ChineseVoiceIndex(voices)
    case Some(i) => Some(voices[i])
    case None => None
  }

  datatype Utterance = Utterance(text: string, lang: string, rate: real, pitch: real, voice: Option<Voice>)

  /** How the speech engine finishes the utterance: its `end` event, its
      `error` event, or neither. */
  datatype UtteranceEnd = Ends | Errors | NeverEnds

  datatype SpeechEngine =
    | NoSpeechEngine
    | SpeechEngine(voices: seq<Voice>, finish: UtteranceEnd)

  /** A file picked as background, with what decoding it yields. */
  datatype ImageFile = ImageFile(name: string, mimeType: string, decoded: Option<Image>)

  /** What the host does during one run. `samples` are the elapsed
      milliseconds at each animation frame; `idClock` and `stampClock` are the
      two `Date.now()` readings taken for the export. */
  datatype Host = Host(
    speech: SpeechEngine,
    playbackStarts: bool,
    recorderSupportsCodec: bool,
    samples: seq<nat>,
    videoUrl: string,
    idClock: nat,
    stampClock: nat)

  /** A transient media object (audio context, recorder, object URL): whether
      it was created and how many times it was closed, stopped or revoked. */
  datatype Handle = Handle(created: bool, releases: nat) {
    predicate IsOpen() {
      created && releases == 0
    }
    function Released(): Handle {
      this.(releases := releases + 1)
    }
  }

  const NotCreated: Handle := Handle(false, 0)
  const Created: Handle := Handle(true, 0)

  /** Every media object one run may create. */
  datatype Resources = Resources(
    speechContext: Handle,      // the service's `audioContext` field, opened by textToSpeech
    speechRecorder: Handle,     // the recorder on the speech context's stream
    imageUrl: Handle,           // the object URL loadImage reads the file through
    compositeContext: Handle,   // the audio context createVideoWithAudio opens
    audioUrl: Handle,           // the object URL the recorded speech is played from
    playbackContext: Handle,    // the audio context createAudioTrack opens
    videoRecorder: Handle)      // the recorder on the combined stream

  const NoResources: Resources :=
    Resources(NotCreated, NotCreated, NotCreated, NotCreated, NotCreated, NotCreated, NotCreated)

  /** Which step of the pipeline rejected. */
  datatype Cause =
    | SpeechUnsupported   // no speech engine
    | UtteranceFailed     // the utterance's error event
    | ImageLoadFailed     // the background file did not decode
    | PlaybackRejected    // `audio.play()` rejected
    | CodecUnsupported    // the recorder refused the vp8/opus container

  datatype Settled = Resolved | Rejected(cause: Cause) | Unsettled

  datatype SpeechRun = SpeechRun(status: Settled, spoken: Option<Utterance>, context: Handle, recorder: Handle)

  /** `textToSpeech`: with no engine it rejects before anything is created or
      spoken; otherwise it opens the speech context and recorder, speaks the
      text, and on the utterance's end stops the recorder and closes the
      context. */
  function TextToSpeech(text: string, engine: SpeechEngine): (r: SpeechRun)
    ensures engine.NoSpeechEngine? ==>
      r.status == Rejected(SpeechUnsupported) && r.spoken.None? && !r.context.created && !r.recorder.created
    ensures engine.SpeechEngine? ==>
      r.spoken == Some(Utterance(text, UtteranceLang, UtteranceRate, UtterancePitch, ChooseVoice(engine.voices))) &&
      r.context.created && r.recorder.created
    ensures r.status.Resolved? <==> engine.SpeechEngine? && engine.finish.Ends?
    ensures engine.SpeechEngine? && engine.finish.Errors? ==> r.status == Rejected(UtteranceFailed)
    ensures engine.SpeechEngine? && engine.finish.NeverEnds? ==> r.status == Unsettled
    ensures r.status.Resolved? ==> r.context.releases == 1 && r.recorder.releases == 1
    ensures !r.status.Resolved? ==> r.context.releases == 0 && r.recorder.releases == 0
  {
    match engine
    case NoSpeechEngine => SpeechRun(Rejected(SpeechUnsupported), None, NotCreated, NotCreated)
    case SpeechEngine(voices, finish) =>
      var u := Utterance(text, UtteranceLang, UtteranceRate, UtterancePitch, ChooseVoice(voices));
      match finish
      case Ends => SpeechRun(Resolved, Some(u), Created.Released(), Created.Released())
      case Errors => SpeechRun(Rejected(UtteranceFailed), Some(u), Created, Created)
      case NeverEnds => SpeechRun(Unsettled, Some(u), Created, Created)
  }

  datatype VideoRun = VideoRun(status: Settled, progress: seq<real>, loop: LoopState, res: Resources)

  /** `createVideoWithAudio`: decode the background (if any), report 50,
      open the composite context, start playing the speech and open the
      playback context, create and start the recorder, then run the frame
      loop; the recorder stopping resolves the promise. */
  function CreateVideoWithAudio(background: Option<ImageFile>, script: VideoScript, host: Host, res: Resources): (r: VideoRun)
    ensures r.status == Rejected(ImageLoadFailed) <==> !BackgroundLoads(background)
    ensures r.progress == [] <==> !BackgroundLoads(background)
    ensures r.progress != [] ==> r.progress[0] == ProgressCompositing && r.res.compositeContext.created
    ensures r.status.Resolved? <==>
      BackgroundLoads(background) && host.playbackStarts && host.recorderSupportsCodec && Run(script, host.samples).stopped
    ensures r.loop.frames != [] ==> r.res.videoRecorder.created
    ensures BackgroundLoads(background) && !host.playbackStarts ==> r.status == Rejected(PlaybackRejected)
    ensures BackgroundLoads(background) && host.playbackStarts && !host.recorderSupportsCodec ==>
      r.status == Rejected(CodecUnsupported)
    ensures BackgroundLoads(background) && host.playbackStarts && host.recorderSupportsCodec ==>
      r.loop == Run(script, host.samples) && r.progress == [ProgressCompositing] + r.loop.progress
  {
    var res1 := if background.Some? then res.(imageUrl := Created.Released()) else res;
    if background.Some? && background.value.decoded.None? then
      VideoRun(Rejected(ImageLoadFailed), [], Initial, res1)
    else
      var res2 := res1.(compositeContext := Created, audioUrl := Created);
      if !host.playbackStarts then
        VideoRun(Rejected(PlaybackRejected), [ProgressCompositing], Initial, res2)
      else
        var res3 := res2.(playbackContext := Created);
        if !host.recorderSupportsCodec then
          VideoRun(Rejected(CodecUnsupported), [ProgressCompositing], Initial, res3)
        else
          var loop := Run(script, host.samples);
          var res4 := res3.(videoRecorder := Handle(true, loop.stopCalls),
                            compositeContext := Handle(true, loop.stopCalls));
          VideoRun(if loop.stopped then Resolved else Unsettled,
                   [ProgressCompositing] + loop.progress, loop, res4)
  }

  datatype Outcome = Done(video: VideoExport) | Failed(message: string) | Pending

  /** Everything observable about one run: what the progress callback
      received, what was spoken, which frames were drawn, the media objects
      and how many times `cleanup` ran. */
  datatype Trace = Trace(
    progress: seq<real>,
    spoken: Option<Utterance>,
    frames: seq<DrawnFrame>,
    res: Resources,
    cleanups: nat)

  datatype SynthesisRun = SynthesisRun(outcome: Outcome, cause: Option<Cause>, trace: Trace)

  /** The service method `synthesizeVideo`: report 10, synthesize speech,
      report 40, create the video, report 90 and 100 and return the export.
      Any rejection on the way becomes the single failure message. It yields
      a video exactly when every step succeeds and the clock reaches the
      declared length, and it fails exactly when some step rejects. */
  function SynthesizeVideo(script: VideoScript, background: Option<ImageFile>, host: Host): (r: SynthesisRun)
    ensures r.trace.cleanups == 0
    ensures |r.trace.progress| >= 1 && r.trace.progress[0] == ProgressStarted
    ensures r.outcome.Done? <==> RecordingStarts(background, host) && ClockReachesEnd(script, host)
    ensures r.outcome.Failed? <==>
      !RecordingStarts(background, host) && !(host.speech.SpeechEngine? && host.speech.finish.NeverEnds?)
    ensures r.outcome.Failed? <==> r.cause.Some?
    ensures r.outcome.Failed? ==> r.outcome.message == FailureMessage
    ensures r.outcome.Done? ==>
      && r.outcome.video.scriptId == script.id
      && r.outcome.video.duration == script.estimatedDuration
      && r.outcome.video.videoUrl == host.videoUrl
      && r.outcome.video.id == NatToString(host.idClock)
      && r.outcome.video.timestamp == host.stampClock
  {
    RunStopsIff(script, host.samples);
    var speech := TextToSpeech(script.script, host.speech);
    var res := NoResources.(speechContext := speech.context, speechRecorder := speech.recorder);
    match speech.status
    case Rejected(c) => SynthesisRun(Failed(FailureMessage), Some(c), Trace([ProgressStarted], speech.spoken, [], res, 0))
    case Unsettled => SynthesisRun(Pending, None, Trace([ProgressStarted], speech.spoken, [], res, 0))
    case Resolved =>
      var video := CreateVideoWithAudio(background, script, host, res);
      var progress := [ProgressStarted, ProgressAudioReady] + video.progress;
      match video.status
      case Rejected(c) => SynthesisRun(Failed(FailureMessage), Some(c), Trace(progress, speech.spoken, video.loop.frames, video.res, 0))
      case Unsettled => SynthesisRun(Pending, None, Trace(progress, speech.spoken, video.loop.frames, video.res, 0))
      case Resolved =>
        var exported := VideoExport(NatToString(host.idClock), script.id, host.videoUrl,
                                  script.estimatedDuration, host.stampClock);
        SynthesisRun(Done(exported), None,
                     Trace(progress + [ProgressCompositingCap, ProgressDone], speech.spoken, video.loop.frames, video.res, 0))
  }

  /** `cleanup`: close the service's audio context if one was ever opened
      (even if it is already closed). The service's recorder field is never
      assigned, so no recorder is stopped here. */
  function Cleanup(res: Resources): (r: Resources)
    ensures r.speechContext.created == res.speechContext.created
    ensures r.speechContext.releases == res.speechContext.releases + (if res.speechContext.created then 1 else 0)
    ensures r.(speechContext := res.speechContext) == res
  {
    if res.speechContext.created then res.(speechContext := res.speechContext.Released()) else res
  }

  /** The exported `synthesizeVideo`: a fresh service, the run, and
      `cleanup` in a `finally` that runs once the run settles. */
  function SynthesizeVideoAndCleanUp(script: VideoScript, background: Option<ImageFile>, host: Host): (r: SynthesisRun)
    ensures r.outcome == SynthesizeVideo(script, background, host).outcome
    ensures r.cause == SynthesizeVideo(script, background, host).cause
    ensures r.trace.progress == SynthesizeVideo(script, background, host).trace.progress
    ensures r.trace.frames == SynthesizeVideo(script, background, host).trace.frames
    ensures r.trace.cleanups == (if r.outcome.Pending? then 0 else 1)
    ensures r.trace.res.(speechContext := SynthesizeVideo(script, background, host).trace.res.speechContext)
         == SynthesizeVideo(script, background, host).trace.res
    ensures r.trace.res.speechContext.created == SynthesizeVideo(script, background, host).trace.res.speechContext.created
    ensures r.trace.res.speechContext.releases == SynthesizeVideo(script, background, host).trace.res.speechContext.releases +
      (if !r.outcome.Pending? && SynthesizeVideo(script, background, host).trace.res.speechContext.created then 1 else 0)
  {
    var r := SynthesizeVideo(script, background, host);
    if r.outcome.Pending? then r
    else r.(trace := r.trace.(res := Cleanup(r.trace.res), cleanups := r.trace.cleanups + 1))
  }

  /** The conditions under which each step succeeds. */
  predicate SpeechSucceeds(host: Host) {
    host.speech.SpeechEngine? && host.speech.finish.Ends?
  }

  predicate BackgroundLoads(background: Option<ImageFile>) {
    background.None? || background.value.decoded.Some?
  }

  predicate RecordingStarts(background: Option<ImageFile>, host: Host) {
    SpeechSucceeds(host) && BackgroundLoads(background) && host.playbackStarts && host.recorderSupportsCodec
  }

  predicate ClockReachesEnd(script: VideoScript, host: Host) {
    exists k :: 0 <= k < |host.samples| && host.samples[k] >= RunMillis(script)
  }

  /** The pipeline succeeds exactly when every step succeeds and the clock
      reaches the declared duration; the export then names the script and
      carries its declared duration. */
  lemma SynthesisSucceedsIff(script: VideoScript, background: Option<ImageFile>, host: Host)
    ensures SynthesizeVideo(script, background, host).outcome.Done? <==>
      RecordingStarts(background, host) && ClockReachesEnd(script, host)
    ensures SynthesizeVideo(script, background, host).outcome.Done? ==>
      var x := SynthesizeVideo(script, background, host).outcome.video;
      && x.scriptId == script.id
      && x.duration == script.estimatedDuration
      && x.videoUrl == host.videoUrl
      && x.id == NatToString(host.idClock)
      && x.timestamp == host.stampClock
  {
    RunStopsIff(script, host.samples);
  }

  /** Every failure, whatever step caused it, surfaces as the one fixed
      message, and a failure happens exactly when some step rejects. */
  lemma FailureCollapsed(script: VideoScript, background: Option<ImageFile>, host: Host)
    ensures SynthesizeVideo(script, background, host).outcome.Failed? ==>
      SynthesizeVideo(script, background, host).outcome.message == FailureMessage
    ensures SynthesizeVideo(script, background, host).outcome.Failed? <==>
      !RecordingStarts(background, host) && !(host.speech.SpeechEngine? && host.speech.finish.NeverEnds?)
  {
  }

  /** Without a speech engine the run fails at once: only the first progress
      value is reported, nothing is spoken and no media object is created. */
  lemma NoSpeechEngineFailsFirst(script: VideoScript, background: Option<ImageFile>, host: Host)
    requires host.speech.NoSpeechEngine?
    ensures var r := SynthesizeVideo(script, background, host);
      && r.outcome == Failed(FailureMessage)
      && r.cause == Some(SpeechUnsupported)
      && r.trace.progress == [ProgressStarted]
      && r.trace.spoken.None?
      && r.trace.res == NoResources
  {
  }

  /** What is spoken is the full script text, in Mandarin at rate 0.9 and
      pitch 1, with the first Chinese voice when the engine has one. */
  lemma SpokenUtterance(script: VideoScript, background: Option<ImageFile>, host: Host)
    requires host.speech.SpeechEngine?
    ensures SynthesizeVideo(script, background, host).trace.spoken ==
      Some(Utterance(script.script, UtteranceLang, UtteranceRate, UtterancePitch, ChooseVoice(host.speech.voices)))
  {
  }

  predicate Ascending(s: seq<real>) {
    forall i, j :: 0 <= i <= j < |s| ==> s[i] <= s[j]
  }

  /** The progress values of a run: 10, then 40 once speech is ready, then
      50 once the background is ready, then one ramp value per drawn frame,
      then 90 and 100 on success only. With a clock that never goes back
      they never decrease, they stay within [10, 100], and 100 is reported
      exactly when the run succeeds, as the last value. */
  lemma ProgressSchedule(script: VideoScript, background: Option<ImageFile>, host: Host)
    requires NonDecreasing(host.samples)
    ensures var p := SynthesizeVideo(script, background, host).trace.progress;
      && |p| >= 1 && p[0] == ProgressStarted
      && Ascending(p)
      && (forall i :: 0 <= i < |p| ==> ProgressStarted <= p[i] <= ProgressDone)
      && (ProgressDone in p <==> SynthesizeVideo(script, background, host).outcome.Done?)
      && (SynthesizeVideo(script, background, host).outcome.Done? ==>
            p[|p| - 1] == ProgressDone && p[|p| - 2] == ProgressCompositingCap)
  {
    ProgressStages(script, background, host);
    var r := SynthesizeVideo(script, background, host);
    var p := r.trace.progress;
    if RecordingStarts(background, host) {
      var ramp := Run(script, host.samples).progress;
      RunProgressMonotone(script, host.samples);
      var head := [ProgressStarted, ProgressAudioReady, ProgressCompositing];
      var tail := if r.outcome.Done? then [ProgressCompositingCap, ProgressDone] else [];
      assert p == head + ramp + tail;
      RampedAscending(head, ramp, tail);
      if !r.outcome.Done? {
        forall i | 0 <= i < |p|
          ensures p[i] < ProgressDone
        {
          if i >= 3 {
            assert p[i] == ramp[i - 3];
          }
        }
      }
    }
  }

  /** The progress values reported up to the point where the run stops: the
      first value alone when speech fails, 10 and 40 when the background
      does not load, 10, 40 and 50 when playback or the recorder fails, and
      otherwise those followed by the frame loop's values, with 90 and 100
      appended exactly when the run succeeds. */
  lemma ProgressStages(script: VideoScript, background: Option<ImageFile>, host: Host)
    ensures !SpeechSucceeds(host) ==>
      SynthesizeVideo(script, background, host).trace.progress == [ProgressStarted]
    ensures SpeechSucceeds(host) && !BackgroundLoads(background) ==>
      SynthesizeVideo(script, background, host).trace.progress == [ProgressStarted, ProgressAudioReady]
    ensures SpeechSucceeds(host) && BackgroundLoads(background) && !RecordingStarts(background, host) ==>
      SynthesizeVideo(script, background, host).trace.progress ==
        [ProgressStarted, ProgressAudioReady, ProgressCompositing]
    ensures RecordingStarts(background, host) ==>
      SynthesizeVideo(script, background, host).trace.progress ==
        [ProgressStarted, ProgressAudioReady, ProgressCompositing] + Run(script, host.samples).progress +
        (if SynthesizeVideo(script, background, host).outcome.Done? then [ProgressCompositingCap, ProgressDone] else [])
    ensures SynthesizeVideo(script, background, host).outcome.Done? <==>
      RecordingStarts(background, host) && Run(script, host.samples).stopped
  {
  }

  /** Three ascending runs, each ending no higher than the next begins,
      concatenate into an ascending run. */
  lemma RampedAscending(head: seq<real>, ramp: seq<real>, tail: seq<real>)
    requires head == [ProgressStarted, ProgressAudioReady, ProgressCompositing]
    requires tail == [] || tail == [ProgressCompositingCap, ProgressDone]
    requires forall j :: 0 <= j < |ramp| ==> ProgressCompositing <= ramp[j] < ProgressCompositingCap
    requires forall j, k :: 0 <= j <= k < |ramp| ==> ramp[j] <= ramp[k]
    ensures Ascending(head + ramp + tail)
    ensures forall i :: 0 <= i < |head + ramp + tail| ==> ProgressStarted <= (head + ramp + tail)[i] <= ProgressDone
  {
    var p := head + ramp + tail;
    forall i, j | 0 <= i <= j < |p|
      ensures p[i] <= p[j]
    {
      if 3 <= i && j < 3 + |ramp| {
        assert p[i] == ramp[i - 3] && p[j] == ramp[j - 3];
      } else if 3 <= i < 3 + |ramp| {
        assert p[i] == ramp[i - 3];
      } else if 3 <= j < 3 + |ramp| {
        assert p[j] == ramp[j - 3];
      }
    }
    forall i | 0 <= i < |p|
      ensures ProgressStarted <= p[i] <= ProgressDone
    {
      if 3 <= i < 3 + |ramp| {
        assert p[i] == ramp[i - 3];
      }
    }
  }

  /** The frame loop starts only once speech, background, playback and the
      recorder are ready, and the frames drawn are exactly those of the
      frame loop over the host's clock. */
  lemma FramesOnlyAfterRecordingStarts(script: VideoScript, background: Option<ImageFile>, host: Host)
    ensures var r := SynthesizeVideo(script, background, host);
      r.trace.frames == if RecordingStarts(background, host) then Run(script, host.samples).frames else []
  {
  }

  /** On success the recorder and the composite context were each stopped
      exactly once, by the frame loop; the speech recorder was stopped once
      and the speech context closed once at the utterance's end. */
  lemma ResourcesOnSuccess(script: VideoScript, background: Option<ImageFile>, host: Host)
    requires SynthesizeVideo(script, background, host).outcome.Done?
    ensures var res := SynthesizeVideo(script, background, host).trace.res;
      && res.videoRecorder == Handle(true, 1)
      && res.compositeContext == Handle(true, 1)
      && res.speechRecorder == Handle(true, 1)
      && res.speechContext == Handle(true, 1)
      && res.playbackContext.IsOpen()
      && res.audioUrl.IsOpen()
  {
    SynthesisSucceedsIff(script, background, host);
    RunCounts(script, host.samples);
  }

  /** The exported wrapper runs `cleanup` exactly once when the run settles,
      on success and on failure alike, and not before. Afterwards the
      speech context, if one was opened, has been closed: on success that is
      its second close. Nothing else changes: the playback context and the
      speech audio URL stay open on every path, and `cleanup` stops no
      recorder. */
  lemma CleanupOnSettle(script: VideoScript, background: Option<ImageFile>, host: Host)
    ensures var r := SynthesizeVideoAndCleanUp(script, background, host);
      var plain := SynthesizeVideo(script, background, host);
      && r.outcome == plain.outcome
      && r.trace.progress == plain.trace.progress
      && r.trace.cleanups == (if r.outcome.Pending? then 0 else 1)
      && r.trace.res.speechContext.created == plain.trace.res.speechContext.created
      && r.trace.res.speechContext.releases == plain.trace.res.speechContext.releases +
           (if !r.outcome.Pending? && plain.trace.res.speechContext.created then 1 else 0)
      && (r.outcome.Done? ==> r.trace.res.speechContext == Handle(true, 2))
      && r.trace.res.(speechContext := plain.trace.res.speechContext) == plain.trace.res
      && r.trace.res.playbackContext.releases == 0
      && r.trace.res.audioUrl.releases == 0
  {
    var plain := SynthesizeVideo(script, background, host);
    if plain.outcome.Done? {
      ResourcesOnSuccess(script, background, host);
    }
  }

  /** The composite audio context leaks when playback or the recorder fails:
      it was opened before the failing step and nothing closes it, not even
      `cleanup`. The speech recorder likewise keeps running after an
      utterance error. */
  lemma LeaksOnLateFailure(script: VideoScript, background: Option<ImageFile>, host: Host)
    ensures var r := SynthesizeVideoAndCleanUp(script, background, host);
      r.cause == Some(PlaybackRejected) || r.cause == Some(CodecUnsupported) ==>
        r.trace.res.compositeContext.IsOpen()
    ensures var r := SynthesizeVideoAndCleanUp(script, background, host);
      r.cause == Some(UtteranceFailed) ==>
        r.trace.res.speechRecorder.IsOpen() && r.trace.res.speechContext == Handle(true, 1)
  {
  }
}

=== FILE: text.dfy ===
/** String helpers standing for the JavaScript built-ins the services use:
    `String.prototype.startsWith`, `Number.prototype.toString` on
    non-negative integers, and `Array.prototype.join` with its inverse. */
module Text {

  /** `s.startsWith(prefix)`. */
  predicate StartsWith(s: string, prefix: string) {
    |prefix| <= |s| && s[..|prefix|] == prefix
  }

  predicate IsDigit(c: char) {
    '0' <= c <= '9'
  }

  function DigitChar(d: nat): (c: char)
    requires d < 10
    ensures IsDigit(c)
    ensures c as int - '0' as int == d
  {
    (d + '0' as int) as char
  }

  /** Decimal rendering of a non-negative integer, as `n.toString()` or a
      template literal `${n}` prints it. */
  function NatToString(n: nat): (s: string)
    ensures |s| >= 1
    ensures forall i :: 0 <= i < |s| ==> IsDigit(s[i])
    ensures s[0] == '0' <==> n == 0
    decreases n
  {
    if n < 10 then [DigitChar(n)] else NatToString(n / 10) + [DigitChar(n % 10)]
  }

  /** Every character of `s` is a decimal digit. */
  predicate IsDecimal(s: string) {
    forall i :: 0 <= i < |s| ==> IsDigit(s[i])
  }

  /** Value of a string of decimal digits, most significant first. */
  function DigitsValue(s: string): nat
    requires forall i :: 0 <= i < |s| ==> IsDigit(s[i])
  {
    if |s| == 0 then 0
    else
      assert IsDigit(s[|s| - 1]);
      DigitsValue(s[..|s| - 1]) * 10 + (s[|s| - 1] as int - '0' as int)
  }

  /** Reading back the decimal rendering gives the number again, so distinct
      numbers render as distinct strings. */
  lemma {:induction false} NatToStringRoundTrip(n: nat)
    ensures DigitsValue(NatToString(n)) == n
    decreases n
  {
    if n >= 10 {
      NatToStringRoundTrip(n / 10);
      var s := NatToString(n);
      assert s[..|s| - 1] == NatToString(n / 10);
    }
  }

  lemma NatToStringInjective(m: nat, n: nat)
    requires NatToString(m) == NatToString(n)
    ensures m == n
  {
    NatToStringRoundTrip(m);
    NatToStringRoundTrip(n);
  }

  /** `parts.join(sep)` for a one-character separator. */
  function Join(parts: seq<string>, sep: char): string {
    if |parts| == 0 then ""
    else if |parts| == 1 then parts[0]
    else parts[0] + [sep] + Join(parts[1..], sep)
  }

  /** `s.split(sep)` for a one-character separator: the inverse of `Join`. */
  function Split(s: string, sep: char): (r: seq<string>)
    ensures |r| >= 1
  {
    if |s| == 0 then [""]
    else if s[0] == sep then [""] + Split(s[1..], sep)
    else
      var rest := Split(s[1..], sep);
      [[s[0]] + rest[0]] + rest[1..]
  }

  lemma {:induction false} SplitWithoutSeparator(a: string, sep: char)
    requires sep !in a
    ensures Split(a, sep) == [a]
    decreases |a|
  {
    if |a| > 0 {
      SplitWithoutSeparator(a[1..], sep);
      assert [a[0]] + a[1..] == a;
    }
  }

  lemma {:induction false} SplitAtFirstSeparator(a: string, b: string, sep: char)
    requires sep !in a
    ensures Split(a + [sep] + b, sep) == [a] + Split(b, sep)
    decreases |a|
  {
    var s := a + [sep] + b;
    if |a| == 0 {
      assert s[1..] == b;
    } else {
      assert s[1..] == a[1..] + [sep] + b;
      SplitAtFirstSeparator(a[1..], b, sep);
      assert [a[0]] + a[1..] == a;
    }
  }

  /** Splitting a joined list gives the list back when no part contains the
      separator. */
  lemma {:induction false} SplitJoin(parts: seq<string>, sep: char)
    requires |parts| >= 1
    requires forall i :: 0 <= i < |parts| ==> sep !in parts[i]
    ensures Split(Join(parts, sep), sep) == parts
    decreases |parts|
  {
    if |parts| == 1 {
      SplitWithoutSeparator(parts[0], sep);
    } else {
      SplitJoin(parts[1..], sep);
      SplitAtFirstSeparator(parts[0], Join(parts[1..], sep), sep);
      assert [parts[0]] + parts[1..] == parts;
    }
  }
}

=== FILE: timeline.dfy ===
/** Caption timing and the progress schedule of the video pipeline
    (services/videoSynthesisService.ts, the `animate` loop of
    `createVideoWithAudio` and the progress steps of `synthesizeVideo`).
    Times are integer milliseconds; section durations are seconds. */
module Timeline {
  import opened Wrappers
  import opened Types

  const MillisPerSecond: int := 1000

  /** Progress checkpoints, in the order the pipeline reports them. */
  const ProgressStarted: real := 10.0
  const ProgressAudioReady: real := 40.0
  const ProgressCompositing: real := 50.0
  const ProgressCompositingCap: real := 90.0
  const ProgressDone: real := 100.0

  /** Section `i` is still running at `elapsed` when `elapsed` lies before
      the cumulative end of sections `0..i`. */
  predicate Covers(sections: seq<ScriptSection>, i: nat, elapsed: int)
    requires i < |sections|
  {
    elapsed < PrefixDuration(sections, i + 1) * MillisPerSecond
  }

  /** The scan of the `for` loop that follows each drawn frame, resumed at
      index `i` with running total `acc` milliseconds: the first index whose
      cumulative end lies beyond `elapsed`, or none. */
  function SectionFrom(sections: seq<ScriptSection>, elapsed: int, i: nat, acc: int): (r: Option<nat>)
    requires i <= |sections|
    requires acc == PrefixDuration(sections, i) * MillisPerSecond
    ensures r.Some? ==> i <= r.value < |sections| && Covers(sections, r.value, elapsed)
    ensures r.Some? ==> forall j :: i <= j < r.value ==> !Covers(sections, j, elapsed)
    ensures r.None? ==> forall j :: i <= j < |sections| ==> !Covers(sections, j, elapsed)
    decreases |sections| - i
  {
    if i == |sections| then None
    else
      var acc' := acc + sections[i].duration * MillisPerSecond;
      PrefixDurationStep(sections, i);
      if elapsed < acc' then Some(i) else SectionFrom(sections, elapsed, i + 1, acc')
  }

  /** The caption index selected for `elapsed`: the first section whose
      cumulative end exceeds it, or none once every section has ended. */
  function SelectSection(sections: seq<ScriptSection>, elapsed: int): (r: Option<nat>)
    ensures r.Some? ==> r.value < |sections| && Covers(sections, r.value, elapsed)
    ensures r.Some? ==> forall j :: 0 <= j < r.value ==> !Covers(sections, j, elapsed)
    ensures r.None? <==> forall j :: 0 <= j < |sections| ==> !Covers(sections, j, elapsed)
  {
    assert sections[..0] == [];
    SectionFrom(sections, elapsed, 0, 0)
  }

  /** The new value of `currentSection` after a tick at `elapsed`: the
      selected index when there is one, otherwise the previous value. */
  function NextSection(current: nat, sections: seq<ScriptSection>, elapsed: int): (r: nat)
    ensures SelectSection(sections, elapsed).None? ==> r == current
    ensures SelectSection(sections, elapsed).Some? ==> r == SelectSection(sections, elapsed).value < |sections|
  {
    match SelectSection(sections, elapsed)
    case Some(i) => i
    case None => current
  }

  /** Selection is monotonic: a later time never selects an earlier section,
      and once no section is selected none is selected afterwards. This holds
      whatever the signs of the durations. */
  lemma SelectSectionMonotone(sections: seq<ScriptSection>, e1: int, e2: int)
    requires e1 <= e2
    ensures SelectSection(sections, e2).Some? ==>
      SelectSection(sections, e1).Some? &&
      SelectSection(sections, e1).value <= SelectSection(sections, e2).value
    ensures SelectSection(sections, e1).None? ==> SelectSection(sections, e2).None?
  {
    var s2 := SelectSection(sections, e2);
    if s2.Some? {
      assert Covers(sections, s2.value, e1);
    }
  }

  /** With non-negative durations, section `i` is selected exactly during
      its own span `[start_i, end_i)` of the timeline. */
  lemma SelectSectionSpan(sections: seq<ScriptSection>, elapsed: nat, i: nat)
    requires NonNegativeDurations(sections)
    requires i < |sections|
    ensures SelectSection(sections, elapsed) == Some(i) <==>
      PrefixDuration(sections, i) * MillisPerSecond <= elapsed < PrefixDuration(sections, i + 1) * MillisPerSecond
  {
    var r := SelectSection(sections, elapsed);
    if r == Some(i) && i > 0 {
      assert !Covers(sections, i - 1, elapsed);
    }
    if PrefixDuration(sections, i) * MillisPerSecond <= elapsed < PrefixDuration(sections, i + 1) * MillisPerSecond {
      forall j | 0 <= j < i
        ensures !Covers(sections, j, elapsed)
      {
        PrefixDurationMonotone(sections, j + 1, i);
      }
      assert Covers(sections, i, elapsed);
    }
  }

  /** Before the total of the section durations has elapsed some section is
      always selected. */
  lemma SectionFoundBeforeTotal(sections: seq<ScriptSection>, elapsed: nat)
    requires elapsed < TotalDuration(sections) * MillisPerSecond
    ensures SelectSection(sections, elapsed).Some?
  {
    PrefixDurationAll(sections);
    assert |sections| > 0;
    assert Covers(sections, |sections| - 1, elapsed);
  }

  function Min(a: real, b: real): real {
    if a <= b then a else b
  }

  /** Progress reported after a frame drawn at `elapsed` of a `duration`
      millisecond run: `Math.min(50 + elapsed / duration * 40, 90)`. A frame
      is drawn only while `elapsed < duration`, so the value stays in
      `[50, 90)`. */
  function Ramp(elapsed: nat, duration: int): (p: real)
    requires elapsed < duration
    ensures ProgressCompositing <= p < ProgressCompositingCap
    ensures p == ProgressCompositing + (elapsed as real / duration as real) * 40.0
  {
    var fraction := elapsed as real / duration as real;
    assert fraction < 1.0 by {
      assert elapsed as real < duration as real;
      FractionBelowOne(elapsed as real, duration as real);
    }
    Min(ProgressCompositing + fraction * 40.0, ProgressCompositingCap)
  }

  lemma FractionBelowOne(a: real, b: real)
    requires 0.0 <= a < b
    ensures 0.0 <= a / b < 1.0
  {
    assert a / b * b == a;
  }

  lemma FractionMonotone(a1: real, a2: real, b: real)
    requires 0.0 <= a1 <= a2
    requires 0.0 < b
    ensures a1 / b <= a2 / b
  {
    assert a1 / b * b == a1;
    assert a2 / b * b == a2;
  }

  /** The ramp never goes back while the clock moves forward. */
  lemma RampMonotone(e1: nat, e2: nat, duration: int)
    requires e1 <= e2 < duration
    ensures Ramp(e1, duration) <= Ramp(e2, duration)
  {
    FractionMonotone(e1 as real, e2 as real, duration as real);
  }
}

=== FILE: types.dfy ===
/** The record shapes of `types.ts` that the video pipeline, the content
    services, the generator screen and the dashboard exchange, together with
    the one computation every one of them relies on: the total of the section
    durations. */
module Types {
  import opened Wrappers

  datatype ContentType = Professional | Promotional

  datatype ContentTopic =
    | HearingImpairment
    | LanguageDelay
    | ArticulationDisorder
    | CourseIntro

  /** A generated social-media post. */
  datatype XiaohongshuContent = XiaohongshuContent(
    id: string,
    timestamp: nat,
    topic: ContentTopic,
    contentType: ContentType,
    title: string,
    content: string,
    hashtags: seq<string>,
    imagePrompts: seq<string>)

  /** One caption of a narration script; `duration` is in seconds. */
  datatype ScriptSection = ScriptSection(text: string, duration: int)

  /** A narration script: the full spoken text, its captions in playback
      order, and the declared total length in seconds. */
  datatype VideoScript = VideoScript(
    id: string,
    contentId: string,
    script: string,
    estimatedDuration: int,
    sections: seq<ScriptSection>)

  /** The finished video handed back to the caller. */
  datatype VideoExport = VideoExport(
    id: string,
    scriptId: string,
    videoUrl: string,
    duration: int,
    timestamp: nat)

  datatype ErrorType = Substitution | Omission | Distortion | NoError

  /** One pronunciation assessment as stored in the history list. */
  datatype AssessmentResult = AssessmentResult(
    id: string,
    timestamp: nat,
    targetPhoneme: string,
    targetWord: string,
    accuracyScore: int,
    isCorrect: bool,
    errorType: ErrorType,
    feedback: string,
    correctionTips: string,
    articulationMethod: string)

  /** Sum of the section durations, accumulated left to right as
      `sections.reduce((sum, s) => sum + s.duration, 0)` does. */
  function TotalDuration(sections: seq<ScriptSection>): (r: int)
    ensures (forall i :: 0 <= i < |sections| ==> sections[i].duration >= 0) ==> r >= 0
    decreases |sections|
  {
    if |sections| == 0 then 0
    else
      assert forall i :: 0 <= i < |sections| - 1 ==> sections[..|sections| - 1][i] == sections[i];
      TotalDuration(sections[..|sections| - 1]) + sections[|sections| - 1].duration
  }

  /** `reduce` adds from the front: the first duration plus the total of the rest. */
  lemma {:induction false} TotalDurationFront(sections: seq<ScriptSection>)
    requires |sections| > 0
    ensures TotalDuration(sections) == sections[0].duration + TotalDuration(sections[1..])
    decreases |sections|
  {
    var n := |sections|;
    if n > 1 {
      TotalDurationFront(sections[..n - 1]);
      assert sections[..n - 1][0] == sections[0];
      assert sections[1..][..n - 2] == sections[..n - 1][1..];
    }
  }

  /** A script whose declared length is the total of its section durations,
      as both content services build it. */
  predicate ConsistentScript(s: VideoScript) {
    s.estimatedDuration == TotalDuration(s.sections)
  }

  /** The script reply both content services ask the model for, once decoded
      from JSON: the spoken text and, when the reply has them, the captions. */
  datatype ScriptReply = ScriptReply(script: string, sections: Option<seq<ScriptSection>>)

  /** Sum of the first `k` section durations. */
  function PrefixDuration(sections: seq<ScriptSection>, k: nat): int
    requires k <= |sections|
  {
    TotalDuration(sections[..k])
  }

  predicate NonNegativeDurations(sections: seq<ScriptSection>) {
    forall i :: 0 <= i < |sections| ==> sections[i].duration >= 0
  }

  /** Each further section adds exactly its own duration to the prefix sum. */
  lemma PrefixDurationStep(sections: seq<ScriptSection>, k: nat)
    requires k < |sections|
    ensures PrefixDuration(sections, k + 1) == PrefixDuration(sections, k) + sections[k].duration
  {
    assert sections[..k + 1][..k] == sections[..k];
  }

  lemma PrefixDurationAll(sections: seq<ScriptSection>)
    ensures PrefixDuration(sections, |sections|) == TotalDuration(sections)
  {
    assert sections[..|sections|] == sections;
  }

  /** With no negative duration the prefix sums never decrease. */
  lemma {:induction false} PrefixDurationMonotone(sections: seq<ScriptSection>, j: nat, k: nat)
    requires NonNegativeDurations(sections)
    requires j <= k <= |sections|
    ensures PrefixDuration(sections, j) <= PrefixDuration(sections, k)
    decreases k - j
  {
    if j < k {
      PrefixDurationMonotone(sections, j, k - 1);
      PrefixDurationStep(sections, k - 1);
    }
  }

  /** The total depends only on the durations, so two section lists with the
      same durations in the same order have the same total whatever their
      captions say. */
  lemma {:induction false} TotalDurationIgnoresText(a: seq<ScriptSection>, b: seq<ScriptSection>)
    requires |a| == |b|
    requires forall i :: 0 <= i < |a| ==> a[i].duration == b[i].duration
    ensures TotalDuration(a) == TotalDuration(b)
    decreases |a|
  {
    if |a| > 0 {
      TotalDurationIgnoresText(a[..|a| - 1], b[..|b| - 1]);
    }
  }
}

=== FILE: wrappers.dfy ===
/** Failure-carrying values standing for a JavaScript `undefined`/`null`
    result or for an error that is thrown and caught. */
module Wrappers {

  /** A value that may be absent (`undefined` or `null` in JavaScript). */
  datatype Option<+T> = None | Some(value: T) {

    /** The carried value, or `default` when absent: the `x || default` idiom. */
    function GetOr(default: T): T {
      match this
      case Some(v) => v
      case None => default
    }
  }

  /** The outcome of a step that can throw: the value it produced or what was thrown. */
  datatype Result<+R, +E> = Ok(value: R) | Err(error: E)
}
